=== FILE: README.md ===
# Garage point of sale: the business-day cash engine

A Dafny model of the money logic of a single-page point-of-sale application
for a motor garage (`script.js`). The browser's IndexedDB store becomes an
immutable record of tables, each a map from auto-increment key to record
(`Records.Table`). The application's globals (current user, current session,
cart, redeemed points, pending day-end report, goods-received list) become
fields of one state record (`Records.Pos`). Every handler is modelled as a
pure function, or as a method where a loop runs, from one state to the next.

The model covers six areas, one module each:

- **Sessions**: `Sessions` (`checkSession`, `startNewDay`, the next invoice
  number).
- **Cart**: `Cart` (adding parts and services, capped at stock; removing a
  line; the subtotal).
- **Checkout**: `Checkout` (validation, the sale's figures, the
  session-scoped invoice counter, stock, credit settlement, loyalty points),
  with `Credit` (the unpaid-credit rule, the settlement line, `markAsPaid`)
  and `Loyalty` (earning, redeeming, the customer upsert).
- **Day end**: `DayEnd` (the day-end report and the close with its variance
  figures).
- **Purchases**: `Purchases` (the goods-received note list, its submission
  and restocking, the supplier balances, and the oldest-first supplier
  payment).
- **Customer contact**: `Reminders` (phone normalisation for WhatsApp, and
  the 90-day / 5000 km service reminder).

`Common` holds the shared vocabulary: `Option`, `Result` and the error
outcomes. It also models `trim`, `toUpperCase` and `x || default`. A list
`reduce` is modelled as a left fold (`Reduce`) and proved equal to a plain
sum (`Sum`), so each total the program accumulates is stated as a sum.

## Where the code departs from its documented behaviour

The model follows the code in each case:

- **`startNewDay` has no conflict check.** It does not look for an
  already-open session (script.js:1601-1611), so a second call stores a
  second open session. The `checkSession` that follows then keeps the
  *older* one current. `Sessions.StartNewDay` states this.
- **A checkout is not all-or-nothing.** The invoice counter is written
  (script.js:510) before the sale is stored (script.js:537). A part deleted
  since it was put in the cart makes the stock loop throw at `p.stock`
  (script.js:543). That leaves the sale, the counter and the earlier lines
  written, and the customer and cart untouched. This is the `Interrupted`
  outcome of `Checkout.Checkout`.
- **A new customer can start with negative points.** A points balance is
  meant never to go negative. A new customer, however, is created
  with `floor(total / 100)` points unclamped (script.js:563-568), so a first
  sale whose discount exceeds its subtotal leaves a negative balance.
  `Loyalty.NewCustomerNegativePoints` exhibits it.
- **A redemption can be granted twice but charged once.** The handler
  overwrites the points to charge (script.js:1557) while it adds to the
  discount field (script.js:1560), and every keystroke in the vehicle field
  (script.js:55) enables the redeem button again (script.js:1534). A second
  redemption therefore doubles the discount but not the points charged.
  `Loyalty.RedeemTwice` states it, and `Loyalty.DoubleRedemptionScenario`
  works through 300 points on a bill of 1000.
- **Clearing the cart keeps a redemption.** Only a completed checkout resets
  the points to charge (script.js:577). `clearCart` (script.js:1342-1353),
  also bound to Esc (script.js:3510), leaves them set, so the next known
  customer's checkout deducts them. `Loyalty.RedemptionOutlivesClear` states
  it.
- **Day-end expenses are taken by calendar day, not by session**
  (script.js:1650-1652).
- **Closing a day twice.** The second call finds no pending report and is
  turned away with "Session data lost" (script.js:1729-1730), not with a
  conflict error.
- **The session is closed only when the report's snapshot says it is open**
  (script.js:1739). The snapshot is taken when the report is generated.

## Model

| member | source | states |
|---|---|---|
| Common.TrimSlice | script.js:487 | `trim` keeps the slice of the field between its leading and trailing whitespace; everything it cuts off is whitespace, and what it keeps neither starts nor ends with whitespace |
| Common.TrimEmptyIffAllSpace | script.js:487-492 | a trimmed field is blank exactly when the field holds only whitespace, which is when checkout's vehicle-number guard fires |
| Common.ToUpperIdempotent | script.js:516 | the upper-cased vehicle number has no lower-case ASCII letter, so upper-casing it again changes nothing |
| Common.ReduceIsSum | script.js:494 | the program's `reduce` from a start value equals that start value plus the sum of the mapped elements |
| Records.Where | script.js:1659 | a `where(...).toArray()` read returns the keys of exactly the rows that match, each once, in ascending key order |
| Sessions.Normalise | script.js:112-115 | the in-memory session always has a start time, a float and a counter; a missing counter reads as 0 and a missing float as 0; a present float and a non-zero start time are kept; user, status, end time and cash are unchanged |
| Sessions.CheckSession | script.js:101-124 | without a user nothing changes; with one, a current session exists exactly when the user has an open session, and it is the open one with the lowest key, normalised; the store, cart and pending report are untouched |
| Sessions.StartNewDay | script.js:1601-1613 | without a user it fails; otherwise exactly one open session with counter 0 is stored under the next key, and that session becomes current exactly when the user had no open session before; no other table and none of the cart, user, redemption, pending report or goods-received list changes |
| Sessions.StartNewDayFresh | script.js:1601-1613 | when the user had no open session, the new session (float as entered, counter 0) becomes the current one |
| Sessions.StartNewDayNoReopen | script.js:1601-1611 | starting a day leaves every stored session exactly as it was, so no closed session reopens |
| Sessions.NextInvoiceId | script.js:322-329 | the next invoice number is the counter plus one, with a missing counter read as 0, and 1 when there is no session |
| Cart.Subtotal | script.js:363 | the cart subtotal is the sum of price × quantity over all lines |
| Cart.DisplayTotal | script.js:363-365 | the total shown is never negative: the subtotal less the discount when that is not negative, else 0 |
| Cart.FindItemLine | script.js:272 | the lookup finds the first part line for the part, and finds none exactly when no part line names it |
| Cart.AddItemToCart | script.js:267-278 | an unknown or out-of-stock part leaves the cart alone; a part already in the cart gains one unit only while below stock, and otherwise nothing changes; a new part is appended as one unit with its catalog price and buying price |
| Cart.AddItemKeepsCap | script.js:267-278 | adding a part keeps every part line between 1 and the part's stock and keeps one line per part |
| Cart.AddItemSubtotal | script.js:267-278 | when a unit is added, the subtotal rises by exactly the part's catalog price for a new line, or by the line's own price when an existing line gains a unit |
| Cart.AddServiceToCart | script.js:279-282 | a listed service keeps the cart as a prefix and adds one line after it: a one-unit service line with the service's name and cost; an unknown id, where the program throws, is an `UnknownService` error and changes nothing |
| Cart.AddServiceSubtotal | script.js:279-282 | adding a listed service raises the subtotal by exactly its cost |
| Cart.AddServiceThenRemove | script.js:279-282 | removing the line a service just appended, by its index or by -1, restores the cart |
| Cart.AddCustomService | script.js:295-314 | a non-positive amount is refused with `InvalidAmount`; otherwise the cart is kept as a prefix and one one-unit service line is appended at that amount, named by the trimmed name field, or "Service Charge" when that is blank |
| Cart.AddCustomServiceSubtotal | script.js:295-314 | an accepted ad-hoc service raises the subtotal by exactly its amount |
| Cart.AddCustomServiceThenRemove | script.js:295-314 | removing the line an ad-hoc service just appended, by its index or by -1, restores the cart |
| Cart.ClearCart | script.js:1342-1353 | clearing empties the cart and keeps the store, user, session, pending report, goods-received list and the points a redemption set aside |
| Cart.SpliceStart | script.js:317-320 | `splice`'s start index: a non-negative index clamped to the length, a negative one counted from the end, and 0 when it reaches before the start |
| Cart.RemoveFromCart | script.js:317-320 | removing drops exactly the line at the splice start and closes up the gap: the lines before it stay in place and the lines after it move down one, in order; an index past the end changes nothing |
| Cart.RemoveDropsOneLine | script.js:317-320 | what is left after removing a line, with that line added back, is the cart's multiset of lines |
| Cart.RemoveSubtotal | script.js:317-320 | removing a line lowers the subtotal by exactly that line's amount |
| Cart.AddThenRemove | script.js:317-320 | removing the line a new part just appended, by its index or by -1, restores the cart |
| Credit.UnpaidCreditKeys | script.js:1573-1574 | the vehicle's unpaid credit sales are exactly its credit sales whose `isPaid` is false or missing, each listed once in key order |
| Credit.OutstandingCredit | script.js:1573-1575 | the vehicle's outstanding credit is the sum of the totals of those sales |
| Credit.PayOutstandingCredit | script.js:1569-1594 | a blank vehicle, a zero credit and a cart already holding a settlement line each give their own error; otherwise one settlement line is appended, priced at the outstanding credit and listing exactly the vehicle's unpaid credit sales |
| Credit.PayOutstandingCreditSingleLine | script.js:1586-1591 | after a successful call the cart holds exactly one settlement line, the one just appended |
| Credit.MarkAsPaid | script.js:1051-1052 | the sale's `isPaid` becomes true and nothing else moves; a missing key changes nothing |
| Credit.MarkAsPaidOnlySettles | script.js:1051-1052 | marking paid only ever moves `isPaid` to true |
| Credit.OnlySettlesKeepsPaid | script.js:1051-1052 | under such changes a paid sale stays paid |
| Credit.MarkAsPaidIdempotent | script.js:1051-1052 | marking a sale paid twice is the same as once |
| Loyalty.EarnedPoints | script.js:553 | points earned are `floor(total / 100)`, rounding down for negative totals too |
| Loyalty.RedeemPoints | script.js:1544-1567 | no points, a bill already at zero and a declined confirmation each give their own error; otherwise between 1 and `min(points, bill)` points are redeemed (exactly the smaller of the two) and the discount grows by that amount |
| Loyalty.RedemptionKeepsBillNonNegative | script.js:1547-1555 | after a redemption the bill is never negative, and it is zero exactly when the points covered it |
| Loyalty.Redeem | script.js:1544-1567 | a redemption fails exactly when the offer does, with the same error; a confirmed one changes only the page's points to charge, which it sets to the points just redeemed whatever an earlier redemption left there, and the discount field grows by the same amount, at most the points shown and at most the bill |
| Loyalty.RedeemTwice | script.js:1557-1560 | redeeming a second time on one cart grants both redemptions as discount, but the points to charge hold only the second one's, so fewer points are charged than were granted |
| Loyalty.DoubleRedemptionScenario | script.js:1557-1560 | 300 points on a bill of 1000, redeemed twice, give 600 off and leave the known customer with 4 points after the sale |
| Loyalty.RedemptionOutlivesClear | script.js:1342-1353 | clearing the cart keeps a redemption's points set aside, so the next known customer's checkout deducts them: that customer ends below old balance + earned |
| Loyalty.UpsertCustomer | script.js:552-569 | the ledger gains only the sale's phone; other customers are unchanged; a known customer gets the new name and vehicle and `max(0, points - redeemed + earned)`; a new one gets exactly the points earned |
| Loyalty.ExistingCustomerPoints | script.js:556-562 | a known customer's balance is never negative, and it moves by exactly `earned - redeemed` when the redeemed points were available and the total is not negative |
| Loyalty.NewCustomerNegativePoints | script.js:563-569 | a new customer whose first total is -250 starts at -3 points |
| Loyalty.UpsertNoDuplicate | script.js:553-569 | the upsert adds at most one record, and none for a known phone |
| Checkout.BuyingCost | script.js:495-498 | the cost of goods is the sum over part lines of unit cost × quantity, so services and settlement lines cost nothing |
| Checkout.SaleFigures | script.js:494-504 | `total + discount = subtotal`; cash: `total + balance = cash received`; credit: `balance = total`; `profit + cost = total` |
| Checkout.ReadEntry | script.js:487-492 | the vehicle number is blank exactly when the trimmed field is blank; name and phone are never empty because of their defaults |
| Checkout.NewSale | script.js:507-530 | the stored sale carries the invoice number, the cart, the entered discount, cash received and mileage, and the day and time of the sale; its own fields satisfy `total = subtotal - discount` and, for cash, `balance = cash received - total`; it is paid exactly when paid in cash, so it is unpaid credit exactly when paid on credit; it is tied to the current session and user |
| Checkout.BumpStored | script.js:508-512 | the counter write changes only the current session's stored counter, and writes nothing when that session is not stored |
| Checkout.NumberedNoReopen | script.js:508-512 | numbering a sale changes no session's status |
| Checkout.MarkAllPaid | script.js:545-549 | marking a list of sales paid sets `isPaid` on exactly the listed stored sales and leaves every other sale as it was |
| Checkout.SettlingClearsCredit | script.js:545-549 | marking paid every sale of a vehicle's settlement line leaves that vehicle with no outstanding credit |
| Checkout.ApplyLines | script.js:540-550 | the line loop changes no table other than parts and sales, and keeps both tables' keys |
| Checkout.ApplyLinesStops | script.js:540-544 | the loop stops exactly at the first part line whose part is no longer stored |
| Checkout.ApplyLinesStock | script.js:540-544 | each part's stock falls by exactly the units the lines that ran asked for, and nothing else about the part changes |
| Checkout.ApplyLinesSettles | script.js:545-549 | a stored sale is marked paid exactly when a settlement line that ran lists it, and is otherwise unchanged |
| Checkout.RunLines | script.js:540-550 | a wrapper around `ApplyLines` that gathers its proved facts into one contract: it completes exactly when every part line names a stored part, and otherwise stops at the first part line whose part is not stored; stock falls per part by the units of the lines that ran; exactly the sales listed by those lines are marked paid |
| Checkout.SettlesCreditOnlySettles | script.js:545-549 | a checkout changes an old sale in one way only: it may mark it paid |
| Checkout.Checkout | script.js:485-583 | an empty cart and a blank vehicle number each give their own rejection and change nothing; an accepted checkout numbers the sale with the counter plus one, in memory and in the stored session, stores it under the next key as the only new sale row, keeps the store valid and leaves the goods-received notes, expenses and goods-received list alone; it completes exactly when every part is still stored; a completed checkout takes stock, settles the listed credit, upserts the customer and clears the cart and redemption; an interrupted one stops at the first part line whose part is gone, having taken stock and settled credit for exactly the lines before it, and leaves customers, cart and redemption as they were |
| Checkout.Commit | script.js:507-583 | the same effects, once validation has passed and the sale record is built: one new sale row and no change to notes, expenses or the goods-received list, including the partial stock and settlement effects of an interrupted loop |
| Checkout.RedeemThenCheckout | script.js:1557-1560 | a known customer who redeems the points the panel shows and then checks out with the discount field as the redemption set it gets a sale whose discount is larger by the points redeemed and whose total is not negative; a completed checkout moves the customer's balance by exactly `earned - redeemed` and sets nothing aside for the next sale |
| Checkout.CheckoutStep | script.js:485-512 | an order is numbered exactly when it passes validation, with the counter plus one, and both the in-memory counter and the stored session's counter move to that number |
| Checkout.RunCheckouts | script.js:507-515 | successive checkouts in one session get consecutive invoice numbers from the session's counter, one per accepted checkout, with no gap or repeat, and the counter ends at the last one, in memory and in the stored session (what a reload reads back); a run with no accepted checkout leaves the stored sessions alone; without a session every sale is number 1 |
| Checkout.FreshDay | script.js:1601-1611 | a day started with no other open session numbers its accepted sales 1, 2, …, N and leaves its counter at N, both in memory and on the stored session |
| DayEnd.SalesTotal | script.js:1759 | total sales are the sum of the sale totals |
| DayEnd.CashSalesTotal | script.js:1660 | cash sales are the sum of the totals of the cash sales |
| DayEnd.CreditSalesTotal | script.js:1761 | credit sales are the sum of the totals of the credit sales, paid or not |
| DayEnd.ProfitTotal | script.js:1762 | gross profit is the sum of the sales' profits |
| DayEnd.ExpensesOn | script.js:1649-1652 | the day's expenses are the sum of the amounts of the expenses dated that day |
| DayEnd.CashPlusCreditIsTotal | script.js:1759-1761 | cash sales plus credit sales equal total sales |
| DayEnd.SessionSaleKeys | script.js:1659 | the session's sales are exactly the sales stored with its id, in key order |
| DayEnd.GenerateDayEndReport | script.js:1629-1705 | without a current session it fails; otherwise it writes nothing and records the session, its sales, its float, the cash sales, the day's expenses and `expected = float + cash sales - expenses` |
| DayEnd.ReportGathersSessionSales | script.js:1659-1664 | every sale in the report belongs to the session, and every stored sale of the session is in it |
| DayEnd.CloseSession | script.js:1737-1755 | only the reported session is written: when the snapshot says open and it is stored, it gets the end time, the counted cash (if current) and status closed; otherwise nothing changes |
| DayEnd.ProcessDayEnd | script.js:1728-1808 | without a pending report it fails; otherwise no session reopens, only the reported session changes, and the current session is found again; nothing but the sessions table changes in the store, and the cart, user, redemption and goods-received list are kept; the report gives the sales totals, the counted cash, `variance = counted - expected` and `net profit = gross profit - expenses` |
| DayEnd.DayEndOnce | script.js:1729-1730 | a second close without a new report is turned away with "session data lost" |
| DayEnd.DayEndBalances | script.js:1683-1768 | after a report and its close, cash and credit sales make up total sales, the variance is the counted cash less `float + cash sales - expenses`, and the float is the session's |
| DayEnd.DayEndScenario | script.js:1683-1768 | a float of 5000, a cash sale of 1500, a credit sale of 800, no expenses and 6500 counted give cash 1500, credit 800, total 2300 and variance 0 |
| Purchases.FindGrnLine | script.js:3161 | the lookup finds the note list's line for the part, or none exactly when no line names it |
| Purchases.AddGrnItem | script.js:3147-3174 | no part selected, a quantity below one and an unknown new part each give their own error; a listed part gains the quantity and takes the new cost, with every other line unchanged; otherwise one line is appended naming the part as the catalog has it |
| Purchases.AddGrnItemKeepsShape | script.js:3157-3174 | the list keeps one line per part and only positive quantities |
| Purchases.AddGrnItemAccumulates | script.js:3163-3174 | the selected part's listed units grow by exactly the quantity entered, every other part's stay the same, and its line carries the cost entered last |
| Purchases.GrnTotal | script.js:3229 | the note total is the sum of quantity × cost over the lines |
| Purchases.RestockEffect | script.js:3248-3256 | a stored part gains every unit the lines receive for it and takes as buying price the cost on the last line naming it; a part no line names keeps its buying price |
| Purchases.RestockUntouched | script.js:3248-3256 | a part no line names is left exactly as stored |
| Purchases.SubmitGrn | script.js:3218-3265 | an empty list and a missing supplier each give their own error; otherwise the note is stored under the next key with total `Σ qty × cost` and the lines, every stored part gains its units, nothing else in the store changes, and the list is cleared |
| Purchases.SupplierGrnKeys | script.js:4147 | the supplier's notes are exactly the notes stored with its id, in key order |
| Purchases.SupplierAccount | script.js:4021-4036 | the supplier row shows the sum of totals, the sum paid, and the sum of per-note balances |
| Purchases.OutstandingIsDifference | script.js:4023-4025 | purchased less paid is the sum of the per-note balances |
| Purchases.OutstandingIsOwed | script.js:4025 | when no note is overpaid, the outstanding figure is exactly what a payment can settle |
| Purchases.SortByTimeChronological | script.js:4149 | sorting notes read in key order leaves them oldest first, ties in key order |
| Purchases.SumSortByTime | script.js:4149 | sorting keeps every sum over the notes |
| Purchases.Allocate | script.js:4151-4158 | one share per note, in order, each between 0 and the note's positive balance |
| Purchases.AllocateTotal | script.js:4151-4158 | the shares add up to `min(payment, Σ positive balances)` |
| Purchases.AllocateExhausted | script.js:4153 | once the payment is used up, no later note receives anything |
| Purchases.AllocateOldestFirst | script.js:4151-4158 | a note receives money only when every earlier note was paid off in full |
| Purchases.PaymentPlan | script.js:4147-4158 | the plan names each of the supplier's stored notes once, oldest first, with a share between 0 and its balance |
| Purchases.PaymentPlanAllocates | script.js:4147-4158 | the plan spends `min(payment, Σ positive balances)` over the supplier's notes, and a note receives money only when every older one was paid off |
| Purchases.ApplyPaymentsEffect | script.js:4155 | each share raises its own note's amount paid by exactly the share, and notes without a share are unchanged |
| Purchases.ProcessSupplierPayment | script.js:4141-4158 | a payment of zero or less is refused; otherwise each note's amount paid grows by its planned share and never beyond its total; only amounts paid change; other suppliers' notes are untouched |
| Purchases.PaymentMovesAccount | script.js:4141-4158 | after a payment the supplier row shows the same purchases, `min(payment, Σ positive balances)` more paid and that much less outstanding |
| Purchases.PayingOutstandingClears | script.js:4141-4158 | paying the outstanding figure the screen shows, when it is positive, clears the supplier's account when no note was overpaid |
| Reminders.DigitsOf | script.js:2567 | stripping non-digits leaves only digits and never lengthens the number |
| Reminders.DigitsOfDigits | script.js:2567 | a number that is all digits is left unchanged |
| Reminders.NormalisePhone | script.js:2567-2568 | the WhatsApp number is all digits and starts with 94: the digits as they are when they start with 94, else 94 followed by the digits with a leading 0 dropped |
| Reminders.NormalisePhoneIdempotent | script.js:3759-3760 | normalising a normalised number changes nothing |
| Reminders.LocalNumberGainsCode | script.js:3759-3760 | a local number `0…` becomes `94…` without the 0 |
| Reminders.SeparatorsIgnored | script.js:3759-3760 | spaces, dashes and other non-digits in the typed number make no difference |
| Reminders.LastService | script.js:3661-3666 | each vehicle's entry is a sale of that vehicle |
| Reminders.LastServiceKeys | script.js:3661-3666 | the vehicles with an entry are exactly the vehicles with a sale |
| Reminders.LastServiceIsLatest | script.js:3661-3666 | each vehicle's entry is its latest sale by timestamp, the first of those tied for latest |
| Reminders.CeilDiv | script.js:3680 | `Math.ceil(a / b)` for a positive divisor: the least q with `a <= q × b` |
| Reminders.ReminderFor | script.js:3672-3695 | due 90 days after the last sale; the days left are the difference to today rounded up; overdue exactly when the due time is a full day or more past; next mileage is 5000 km on, or 0 when none was recorded |
| Reminders.LaterServiceLaterDue | script.js:3677-3694 | a later last service never brings the due date nearer, and never makes a vehicle overdue that was not |
| Reminders.ServiceTodayDueIn90 | script.js:3668-3694 | a service on the day is due in exactly 90 days and is not overdue |
| Reminders.Reminders | script.js:3672-3708 | the list holds, for each vehicle with a sale, the reminder of its latest sale exactly when the filter shows it, and nothing else |
| Reminders.OverdueAndUpcomingDisjoint | script.js:3700-3703 | no reminder is both overdue and due within the week |

## Left out

- Rendering, modals, toasts and the `update*UI` functions are presentation only.
- IndexedDB access is modelled as synchronous updates of an in-memory store; `await` interleavings and other tabs are not modelled.
- Store failures are not modelled. The one failure kept is the checkout's thrown `TypeError` on a deleted part.
- The journal file, backup and export, PDF generation, printing, e-mail and WhatsApp window-opening are browser I/O or foreign libraries.
- Login, users and roles are not modelled. The admin role only changes what is displayed.
- Barcode key capture and keyboard shortcuts are event glue. `sw.js` is cache plumbing and is not part of this model.
- Money is an integer, not a float. Locale formatting, `parseFloat(...) || 0` and `Number(...) || 0` are modelled as already-parsed integer inputs; a missing numeric field is 0.
- Dates and times are abstract integers (`Clock.day`, `Clock.time`). The date strings the program compares are assumed to be one string per day.
- Reminders.ReminderFor: adds 90 × 24 h to the timestamp, whereas `setDate(+90)` follows the calendar and can differ by an hour across a daylight-saving change.
- The `confirm` dialog of a redemption is an input (`confirmed`).
- The customer-points display the redemption reads is an input (`points`).
- Common.ToUpper: upper-cases ASCII letters only, whereas `toUpperCase` maps all of Unicode. Vehicle numbers are ASCII.
- Common.Trim: strips the ASCII whitespace, line terminators and the no-break space, not every Unicode space separator.
- Reminders.Reminders: returns a set. The search box, the sort by due date and the list counters are not modelled.
- The supplier's display name on a note, the suppliers table itself and the total payable over all suppliers are display figures with no business rule of their own.
- Sessions.CheckSession: models the start-time repair only for a missing or zero start time.
- Sessions.Normalise: treats a missing float as the `NaN` case of `isNaN(floatCash)`; a present but non-numeric float does not arise with integer money.
- The part catalog (`inventory`) is the stored parts table. The in-memory copy the add-to-cart button reads is assumed to be in step with it.

=== FILE: cart.dfy ===
/** The cart of the sale in progress: adding parts (capped at the stock on
    hand), catalogued and ad-hoc services, removing a line, and the subtotal
    and clamped total the cart panel shows. */
module Cart {
  import opened Common
  import opened Records

  /** `cart.reduce((sum, item) => sum + item.price * item.qty, 0)`. */
  function Subtotal(cart: seq<CartLine>): (r: int)
    ensures r == Sum(cart, LineAmount)
  {
    ReduceIsSum(cart, LineAmount, 0);
    Reduce(cart, LineAmount, 0)
  }

  /** The total the cart panel shows: never below zero, unlike the total a
      checkout records. */
  function DisplayTotal(cart: seq<CartLine>, discount: int): (r: int)
    ensures r >= 0 && r >= Subtotal(cart) - discount
    ensures r == 0 || r == Subtotal(cart) - discount
  {
    Max(0, Subtotal(cart) - discount)
  }

  /** The first line for stock item `id`, as `cart.find` returns it. */
  function FindItemLine(cart: seq<CartLine>, id: nat): (r: Option<nat>)
    ensures r.None? ==> forall j :: 0 <= j < |cart| ==> !(cart[j].Item? && cart[j].itemId == id)
    ensures r.Some? ==> r.value < |cart| && cart[r.value].Item? && cart[r.value].itemId == id
    ensures r.Some? ==> forall j :: 0 <= j < r.value ==> !(cart[j].Item? && cart[j].itemId == id)
  {
    if cart == [] then None
    else if cart[0].Item? && cart[0].itemId == id then Some(0)
    else match FindItemLine(cart[1..], id)
      case None => None
      case Some(i) => Some(i + 1)
  }

  /** Every part line asks for at least one unit and no more than the
      catalog has in stock. */
  predicate StockCapped(cart: seq<CartLine>, catalog: map<nat, InventoryItem>) {
    forall i :: 0 <= i < |cart| && cart[i].Item? ==>
      cart[i].itemId in catalog && 1 <= cart[i].qty <= catalog[cart[i].itemId].stock
  }

  /** No part appears on two lines. */
  predicate OneLinePerItem(cart: seq<CartLine>) {
    forall i, j :: 0 <= i < j < |cart| && cart[i].Item? && cart[j].Item? ==> cart[i].itemId != cart[j].itemId
  }

  /** `addToCart('item', id)`: an unknown or out-of-stock part is ignored; a
      part already in the cart gains one unit unless that would exceed the
      stock ("Maximum stock reached"); otherwise a one-unit line is appended,
      copying the part's price and buying price. */
  function AddItemToCart(cart: seq<CartLine>, catalog: map<nat, InventoryItem>, id: nat): (r: seq<CartLine>)
    ensures (id !in catalog || catalog[id].stock <= 0) ==> r == cart
    ensures id in catalog && catalog[id].stock > 0 && FindItemLine(cart, id).None? ==>
      r == cart + [Item(id, catalog[id].partName, catalog[id].price, catalog[id].buyingPrice, 1)]
    ensures id in catalog && catalog[id].stock > 0 && FindItemLine(cart, id).Some? ==>
      var i := FindItemLine(cart, id).value;
      |r| == |cart| && r[i].Item? && r[i].itemId == id
      && (forall j :: 0 <= j < |cart| && j != i ==> r[j] == cart[j])
      && (cart[i].qty < catalog[id].stock ==> r[i] == cart[i].(qty := cart[i].qty + 1))
      && (cart[i].qty >= catalog[id].stock ==> r == cart)
  {
    if id !in catalog || catalog[id].stock <= 0 then cart
    else
      var p := catalog[id];
      match FindItemLine(cart, id)
      case Some(i) =>
        if cart[i].qty < p.stock then cart[i := cart[i].(qty := cart[i].qty + 1)] else cart
      case None =>
        cart + [Item(id, p.partName, p.price, p.buyingPrice, 1)]
  }

  /** Adding a part keeps every part line within stock and keeps parts on
      one line each. */
  lemma AddItemKeepsCap(cart: seq<CartLine>, catalog: map<nat, InventoryItem>, id: nat)
    requires StockCapped(cart, catalog) && OneLinePerItem(cart)
    ensures StockCapped(AddItemToCart(cart, catalog, id), catalog)
    ensures OneLinePerItem(AddItemToCart(cart, catalog, id))
  {
    var r := AddItemToCart(cart, catalog, id);
    if id in catalog && catalog[id].stock > 0 && FindItemLine(cart, id).None? {
      forall i, j | 0 <= i < j < |r| && r[i].Item? && r[j].Item?
        ensures r[i].itemId != r[j].itemId
      {
        if j == |cart| {
          assert r[i] == cart[i];
        } else {
          assert r[i] == cart[i] && r[j] == cart[j];
        }
      }
    }
  }

  /** A part added to the cart raises the subtotal by exactly its price
      when a unit is actually added, and leaves it alone otherwise. */
  lemma AddItemSubtotal(cart: seq<CartLine>, catalog: map<nat, InventoryItem>, id: nat)
    ensures var r := AddItemToCart(cart, catalog, id);
      r != cart && FindItemLine(cart, id).None? ==> Subtotal(r) == Subtotal(cart) + catalog[id].price
    ensures var r := AddItemToCart(cart, catalog, id);
      r != cart && FindItemLine(cart, id).Some? ==> Subtotal(r) == Subtotal(cart) + cart[FindItemLine(cart, id).value].price
  {
    var r := AddItemToCart(cart, catalog, id);
    if r != cart {
      var p := catalog[id];
      match FindItemLine(cart, id)
      case None =>
        SumSnoc(cart, Item(id, p.partName, p.price, p.buyingPrice, 1), LineAmount);
      case Some(i) =>
        BumpedLineSubtotal(cart, i);
    }
  }

  /** One more unit on a part line adds that part's price to the subtotal. */
  lemma BumpedLineSubtotal(cart: seq<CartLine>, i: nat)
    requires i < |cart| && cart[i].Item?
    ensures Subtotal(cart[i := cart[i].(qty := cart[i].qty + 1)]) == Subtotal(cart) + cart[i].price
  {
    var r := cart[i := cart[i].(qty := cart[i].qty + 1)];
    SumRemove(cart, i, LineAmount);
    SumRemove(r, i, LineAmount);
    assert r[..i] + r[i + 1..] == cart[..i] + cart[i + 1..];
    assert r[i].price == cart[i].price && r[i].Qty() == cart[i].Qty() + 1;
    assert LineAmount(r[i]) == LineAmount(cart[i]) + cart[i].price;
  }

  /** `addToCart('service', id)`: appends a one-unit line at the service's
      listed cost. An id missing from the list throws before the cart is
      touched. */
  function AddServiceToCart(cart: seq<CartLine>, services: map<nat, ServiceDef>, id: nat): (r: Result<seq<CartLine>>)
    ensures id !in services <==> r.Err?
    ensures r.Err? ==> r.error == UnknownService
    ensures r.Ok? ==> |r.value| == |cart| + 1 && r.value[..|cart|] == cart
    ensures r.Ok? ==> var l := r.value[|cart|];
      l.Service? && l.partName == services[id].serviceName && l.price == services[id].cost && l.qty == 1
  {
    if id !in services then Err(UnknownService)
    else Ok(cart + [Service(services[id].serviceName, services[id].cost, 1)])
  }

  /** Appending one unit of a line adds that line's price to the subtotal. */
  lemma AppendedUnitSubtotal(cart: seq<CartLine>, r: seq<CartLine>)
    requires |r| == |cart| + 1 && r[..|cart|] == cart && r[|cart|].Service? && r[|cart|].qty == 1
    ensures Subtotal(r) == Subtotal(cart) + r[|cart|].price
  {
    assert r == cart + [r[|cart|]];
    SumSnoc(cart, r[|cart|], LineAmount);
  }

  /** A listed service raises the subtotal by exactly its cost. */
  lemma AddServiceSubtotal(cart: seq<CartLine>, services: map<nat, ServiceDef>, id: nat)
    requires id in services
    ensures Subtotal(AddServiceToCart(cart, services, id).value) == Subtotal(cart) + services[id].cost
  {
    AppendedUnitSubtotal(cart, AddServiceToCart(cart, services, id).value);
  }

  /** Removing the line a service just appended, by its index or by -1,
      restores the cart. */
  lemma AddServiceThenRemove(cart: seq<CartLine>, services: map<nat, ServiceDef>, id: nat)
    requires id in services
    ensures RemoveFromCart(AddServiceToCart(cart, services, id).value, |cart|) == cart
    ensures RemoveFromCart(AddServiceToCart(cart, services, id).value, -1) == cart
  {
  }

  /** `addCustomServiceToCart`: a positive amount is appended as a one-unit
      service line, named "Service Charge" when the name field is blank. */
  function AddCustomService(cart: seq<CartLine>, name: string, amount: int): (r: Result<seq<CartLine>>)
    ensures amount <= 0 <==> r.Err?
    ensures r.Ok? ==> |r.value| == |cart| + 1 && r.value[..|cart|] == cart
    ensures r.Err? ==> r.error == InvalidAmount
    ensures r.Ok? ==> var l := r.value[|cart|];
      l.Service? && l.price == amount && l.qty == 1 && l.partName != []
    ensures r.Ok? && Trim(name) == [] ==> r.value[|cart|].partName == "Service Charge"
    ensures r.Ok? && Trim(name) != [] ==> r.value[|cart|].partName == Trim(name)
  {
    if amount <= 0 then Err(InvalidAmount)
    else Ok(cart + [Service(OrDefault(Trim(name), "Service Charge"), amount, 1)])
  }

  /** An ad-hoc service raises the subtotal by exactly its amount. */
  lemma AddCustomServiceSubtotal(cart: seq<CartLine>, name: string, amount: int)
    requires amount > 0
    ensures Subtotal(AddCustomService(cart, name, amount).value) == Subtotal(cart) + amount
  {
    AppendedUnitSubtotal(cart, AddCustomService(cart, name, amount).value);
  }

  /** Removing the line an ad-hoc service just appended, by its index or by
      -1, restores the cart. */
  lemma AddCustomServiceThenRemove(cart: seq<CartLine>, name: string, amount: int)
    requires amount > 0
    ensures RemoveFromCart(AddCustomService(cart, name, amount).value, |cart|) == cart
    ensures RemoveFromCart(AddCustomService(cart, name, amount).value, -1) == cart
  {
  }

  /** Where `splice(index, 1)` starts: a negative index counts from the end,
      and one before the start clamps to 0. */
  function SpliceStart(len: nat, index: int): (k: nat)
    ensures k <= len
    ensures 0 <= index ==> k == Min(index, len)
    ensures -(len as int) <= index < 0 ==> k == len + index
    ensures index < -(len as int) ==> k == 0
  {
    if index >= 0 then Min(index, len)
    else if len + index >= 0 then len + index
    else 0
  }

  /** `removeFromCart(index)`: `cart.splice(index, 1)`. The lines after the
      removed one close up, keeping their order. */
  function RemoveFromCart(cart: seq<CartLine>, index: int): (r: seq<CartLine>)
    ensures SpliceStart(|cart|, index) == |cart| ==> r == cart
    ensures SpliceStart(|cart|, index) < |cart| ==>
      var k := SpliceStart(|cart|, index);
      && |r| == |cart| - 1
      && (forall i :: 0 <= i < |r| ==> r[i] == if i < k then cart[i] else cart[i + 1])
  {
    var k := SpliceStart(|cart|, index);
    if k == |cart| then cart
    else cart[..k] + cart[k + 1..]
  }

  /** Removing a line loses exactly that line's occurrence: what is left,
      with the removed line added back, is the cart's multiset. */
  lemma RemoveDropsOneLine(cart: seq<CartLine>, index: int)
    requires SpliceStart(|cart|, index) < |cart|
    ensures var k := SpliceStart(|cart|, index);
      multiset(RemoveFromCart(cart, index)) + multiset{cart[k]} == multiset(cart)
  {
    var k := SpliceStart(|cart|, index);
    assert cart == cart[..k] + [cart[k]] + cart[k + 1..];
    assert RemoveFromCart(cart, index) == cart[..k] + cart[k + 1..];
  }

  /** Removing a line takes exactly its amount off the subtotal. */
  lemma RemoveSubtotal(cart: seq<CartLine>, index: int)
    requires SpliceStart(|cart|, index) < |cart|
    ensures Subtotal(RemoveFromCart(cart, index)) == Subtotal(cart) - LineAmount(cart[SpliceStart(|cart|, index)])
  {
    SumRemove(cart, SpliceStart(|cart|, index), LineAmount);
  }

  /** Adding a part and then removing the line it appended restores the cart. */
  lemma AddThenRemove(cart: seq<CartLine>, catalog: map<nat, InventoryItem>, id: nat)
    requires id in catalog && catalog[id].stock > 0 && FindItemLine(cart, id).None?
    ensures RemoveFromCart(AddItemToCart(cart, catalog, id), |cart|) == cart
    ensures RemoveFromCart(AddItemToCart(cart, catalog, id), -1) == cart
  {
    var r := AddItemToCart(cart, catalog, id);
    assert r[..|cart|] == cart;
  }

  /** `clearCart`, also run by the Esc key: the cart is emptied (the form
      fields it blanks are inputs of the model, not state). The points a
      redemption set aside are not reset, and nothing else changes. */
  function ClearCart(st: Pos): (r: Pos)
    ensures r.cart == [] && r.redeemedPoints == st.redeemedPoints
    ensures r.db == st.db && r.user == st.user && r.current == st.current
    ensures r.pending == st.pending && r.grnCart == st.grnCart
  {
    st.(cart := [])
  }
}

=== FILE: checkout.dfy ===
/** Checkout: turning the cart into a stored sale. Validation comes first
    and changes nothing; then the figures are computed, the session's
    invoice counter is bumped, the sale is stored, each part line takes its
    quantity off stock, each settlement line marks its old sales paid, and
    the customer found by phone earns (and spends) loyalty points. */
module Checkout {
  import opened Common
  import opened Records
  import opened Sessions
  import opened Cart
  import opened Credit
  import opened Loyalty

  /** The fields of the checkout panel, already parsed (`parseFloat(…) || 0`). */
  datatype CheckoutForm = CheckoutForm(
    vehicleNo: string,
    customerName: string,
    customerPhone: string,
    mileage: int,
    discount: int,
    cashReceived: int)

  /** The cost of the goods sold: only part lines are costed, so services
      and a settlement line cost nothing. */
  function BuyingCost(cart: seq<CartLine>): (r: int)
    ensures r == Sum(cart, LineCost)
  {
    ReduceIsSum(cart, LineCost, 0);
    Reduce(cart, LineCost, 0)
  }

  datatype Figures = Figures(subtotal: int, cost: int, total: int, balance: int, profit: int)

  /** The money figures of a sale. The total is not clamped at zero, a cash
      sale's balance is the change (negative when the cash falls short), a
      credit sale's balance is the whole total, and services count as pure
      profit. */
  function SaleFigures(cart: seq<CartLine>, discount: int, cashReceived: int, pay: PaymentMethod): (f: Figures)
    ensures f.subtotal == Sum(cart, LineAmount)
    ensures f.cost == Sum(cart, LineCost)
    ensures f.total + discount == f.subtotal
    ensures pay == Cash ==> f.total + f.balance == cashReceived
    ensures pay == Credit ==> f.balance == f.total
    ensures f.profit + f.cost == f.total
  {
    var subtotal := Subtotal(cart);
    var cost := BuyingCost(cart);
    var total := subtotal - discount;
    var balance := if pay == Cash then cashReceived - total else total;
    Figures(subtotal, cost, total, balance, total - cost)
  }

  // ---------------------------------------------------------------------
  // Effects of the cart lines

  /** Units of part `id` the lines take off stock. */
  function QtyFor(lines: seq<CartLine>, id: nat): int {
    if lines == [] then 0
    else (if lines[0].Item? && lines[0].itemId == id then lines[0].qty else 0) + QtyFor(lines[1..], id)
  }

  /** The sales the settlement lines among `lines` mark paid. */
  function SettledBy(lines: seq<CartLine>): set<nat> {
    if lines == [] then {} else LineSettles(lines[0]) + SettledBy(lines[1..])
  }

  /** The sales one line marks paid: those a settlement line lists. */
  function LineSettles(l: CartLine): set<nat> {
    if l.CreditPayment? then set k | k in l.originalSales else {}
  }

  /** `db.sales.update(id, { isPaid: true })` for each id in turn. */
  function MarkAllPaid(sales: Table<Sale>, ids: seq<nat>): (r: Table<Sale>)
    ensures r.nextId == sales.nextId && r.rows.Keys == sales.rows.Keys
    ensures forall k :: k in sales.rows ==>
      r.rows[k] == if k in ids then sales.rows[k].(isPaid := Some(true)) else sales.rows[k]
    decreases |ids|
  {
    if ids == [] then sales else MarkAllPaid(MarkAsPaid(sales, ids[0]), ids[1..])
  }

  /** Marking paid every sale a settlement line lists clears the vehicle's
      outstanding credit: no unpaid credit sale of it is left. */
  lemma SettlingClearsCredit(sales: Table<Sale>, vNo: string)
    requires sales.Valid()
    ensures MarkAllPaid(sales, UnpaidCreditKeys(sales, vNo)).Valid()
    ensures OutstandingCredit(MarkAllPaid(sales, UnpaidCreditKeys(sales, vNo)), vNo) == 0
  {
    var ids := UnpaidCreditKeys(sales, vNo);
    var after := MarkAllPaid(sales, ids);
    forall k | k in after.rows && after.rows[k].vehicleNo == vNo
      ensures !IsUnpaidCredit(after.rows[k])
    {
      if k !in ids {
        assert after.rows[k] == sales.rows[k];
      }
    }
  }

  /** The effect of one line; `None` when a part line names a part that is no
      longer stored, where the program's `p.stock` throws. */
  function ApplyLine(db: Db, l: CartLine): Option<Db> {
    match l
    case Item(id, _, _, _, qty) =>
      if id in db.inventory then
        Some(db.(inventory := db.inventory[id := db.inventory[id].(stock := db.inventory[id].stock - qty)]))
      else None
    case Service(_, _, _) => Some(db)
    case CreditPayment(_, _, ids) => Some(db.(sales := MarkAllPaid(db.sales, ids)))
  }

  /** The database after the line loop, and how many lines ran before one
      threw (all of them when none did). */
  datatype Applied = Applied(db: Db, done: nat)

  lemma QtyForCons(l: CartLine, rest: seq<CartLine>, id: nat)
    ensures QtyFor([l] + rest, id) == (if l.Item? && l.itemId == id then l.qty else 0) + QtyFor(rest, id)
  {
    assert ([l] + rest)[1..] == rest;
  }

  lemma SettledByCons(l: CartLine, rest: seq<CartLine>)
    ensures SettledBy([l] + rest) == LineSettles(l) + SettledBy(rest)
  {
    assert ([l] + rest)[1..] == rest;
  }

  /** The stock and settlement loop of `checkout`, line by line. A part
      missing from the store stops it; the parts table keeps its keys, the
      sales table its keys, and no other table changes. */
  function ApplyLines(db: Db, lines: seq<CartLine>): (r: Applied)
    ensures r.done <= |lines|
    ensures r.db.inventory.Keys == db.inventory.Keys
    ensures r.db.sales.nextId == db.sales.nextId && r.db.sales.rows.Keys == db.sales.rows.Keys
    ensures r.db.sessions == db.sessions && r.db.customers == db.customers
    ensures r.db.grns == db.grns && r.db.expenses == db.expenses
    decreases |lines|
  {
    if lines == [] then Applied(db, 0)
    else match ApplyLine(db, lines[0])
      case None => Applied(db, 0)
      case Some(db1) =>
        var rest := ApplyLines(db1, lines[1..]);
        Applied(rest.db, rest.done + 1)
  }

  /** The loop stops exactly at the first part line whose part is not
      stored: every part line before it names a stored part. */
  lemma {:induction false} ApplyLinesStops(db: Db, lines: seq<CartLine>)
    ensures var r := ApplyLines(db, lines);
      && (r.done < |lines| ==> lines[r.done].Item? && lines[r.done].itemId !in db.inventory)
      && forall i :: 0 <= i < r.done && lines[i].Item? ==> lines[i].itemId in db.inventory
    decreases |lines|
  {
    if lines != [] {
      match ApplyLine(db, lines[0])
      case None =>
      case Some(db1) =>
        ApplyLinesStops(db1, lines[1..]);
    }
  }

  /** Each part's stock falls by exactly the units the lines that ran asked
      for, and nothing else about the part changes. */
  lemma {:induction false} ApplyLinesStock(db: Db, lines: seq<CartLine>, id: nat)
    requires id in db.inventory
    ensures var r := ApplyLines(db, lines);
      r.db.inventory[id] == db.inventory[id].(stock := db.inventory[id].stock - QtyFor(lines[..r.done], id))
    decreases |lines|
  {
    if lines != [] {
      match ApplyLine(db, lines[0])
      case None =>
      case Some(db1) =>
        var rest := ApplyLines(db1, lines[1..]);
        ApplyLinesStock(db1, lines[1..], id);
        assert lines[..rest.done + 1] == [lines[0]] + lines[1..][..rest.done];
        QtyForCons(lines[0], lines[1..][..rest.done], id);
    }
  }

  /** One line marks a stored sale paid exactly when it is a settlement
      line listing it. */
  lemma ApplyLineSettles(db: Db, l: CartLine, k: nat)
    requires k in db.sales.rows && ApplyLine(db, l).Some?
    ensures var db1 := ApplyLine(db, l).value;
      && k in db1.sales.rows
      && db1.sales.rows[k] == if k in LineSettles(l) then db.sales.rows[k].(isPaid := Some(true)) else db.sales.rows[k]
  {
  }

  /** A stored sale is marked paid exactly when a settlement line that ran
      lists it, and is otherwise left as it was. */
  lemma {:induction false} ApplyLinesSettles(db: Db, lines: seq<CartLine>, k: nat)
    requires k in db.sales.rows
    ensures var r := ApplyLines(db, lines);
      r.db.sales.rows[k] == if k in SettledBy(lines[..r.done]) then db.sales.rows[k].(isPaid := Some(true)) else db.sales.rows[k]
    decreases |lines|
  {
    if lines != [] {
      match ApplyLine(db, lines[0])
      case None =>
      case Some(db1) =>
        var rest := ApplyLines(db1, lines[1..]);
        ApplyLineSettles(db, lines[0], k);
        ApplyLinesSettles(db1, lines[1..], k);
        assert lines[..rest.done + 1] == [lines[0]] + lines[1..][..rest.done];
        SettledByCons(lines[0], lines[1..][..rest.done]);
    }
  }

  // ---------------------------------------------------------------------
  // Checkout

  datatype Outcome =
    | Rejected(error: Error)     // validation failed, nothing written
    | Completed(saleId: nat)     // every step ran
    | Interrupted(saleId: nat, linesRun: nat)   // the line loop threw on a missing part after `linesRun` lines

  datatype CheckoutResult = CheckoutResult(st: Pos, outcome: Outcome)

  /** The session after `checkout` has written the new counter. */
  function Bumped(current: Option<ActiveSession>, invoiceNo: int): Option<ActiveSession> {
    match current
    case None => None
    case Some(a) => Some(Active(a.id, a.session.(invoiceCounter := Some(invoiceNo))))
  }

  /** `db.sessions.update(id, { invoiceCounter: n })`. */
  function BumpStored(sessions: Table<Session>, current: Option<ActiveSession>, invoiceNo: int): (r: Table<Session>)
    ensures r.nextId == sessions.nextId && r.rows.Keys == sessions.rows.Keys
    ensures forall k :: k in sessions.rows && (current.None? || k != current.value.id) ==> r.rows[k] == sessions.rows[k]
    ensures current.Some? && current.value.id in sessions.rows ==>
      r.rows[current.value.id] == sessions.rows[current.value.id].(invoiceCounter := Some(invoiceNo))
  {
    match current
    case None => sessions
    case Some(a) =>
      if a.id in sessions.rows then sessions.Put(a.id, sessions.rows[a.id].(invoiceCounter := Some(invoiceNo)))
      else sessions
  }

  function SessionKey(current: Option<ActiveSession>): Option<nat> {
    match current
    case None => None
    case Some(a) => Some(a.id)
  }

  /** The three text fields as `checkout` reads them: trimmed, the vehicle
      number upper-cased, a blank name or phone replaced by its default. */
  datatype Entry = Entry(vehicleNo: string, customerName: string, customerPhone: string)

  function ReadEntry(form: CheckoutForm): (e: Entry)
    ensures e.vehicleNo == [] <==> Trim(form.vehicleNo) == []
    ensures e.customerName != [] && e.customerPhone != []
  {
    ToUpperPointwise(Trim(form.vehicleNo));
    Entry(ToUpper(Trim(form.vehicleNo)),
          OrDefault(Trim(form.customerName), "Walking Customer"),
          OrDefault(Trim(form.customerPhone), "-"))
  }

  /** The record `checkout` stores: its figures as `SaleFigures` gives them,
      tied to the current session and user, and paid at once exactly when
      paid in cash, so a credit sale starts out as unpaid credit. */
  function NewSale(st: Pos, e: Entry, form: CheckoutForm, pay: PaymentMethod, now: Clock, invoiceNo: int): (s: Sale)
    ensures s.invoiceNo == invoiceNo && s.items == st.cart && s.paymentMethod == pay
    ensures s.subtotal == Sum(st.cart, LineAmount)
    ensures s.total == s.subtotal - form.discount
    ensures s.profit == s.total - Sum(st.cart, LineCost)
    ensures pay == Cash ==> s.balance == form.cashReceived - s.total
    ensures pay == Credit ==> s.balance == s.total
    ensures IsPaid(s) <==> pay == Cash
    ensures IsUnpaidCredit(s) <==> pay == Credit
    ensures s.vehicleNo == e.vehicleNo && s.customerName == e.customerName && s.customerPhone == e.customerPhone
    ensures s.sessionId == SessionKey(st.current) && s.userId == st.user
    ensures s.discount == form.discount && s.cashReceived == form.cashReceived && s.mileage == form.mileage
    ensures s.date == now.day && s.timestamp == now.time
  {
    var f := SaleFigures(st.cart, form.discount, form.cashReceived, pay);
    Sale(invoiceNo, e.vehicleNo, e.customerName, e.customerPhone,
         form.mileage, st.cart,
         f.subtotal, form.discount, f.total, form.cashReceived, f.balance, f.profit,
         pay, now.day, now.time, Some(pay == Cash),
         SessionKey(st.current), st.user)
  }

  /** The settlement lines only name sales already stored. */
  predicate SettlesStoredSales(cart: seq<CartLine>, sales: Table<Sale>) {
    forall k :: k in SettledBy(cart) ==> k in sales.rows
  }

  lemma {:induction false} SettledByPrefix(lines: seq<CartLine>, n: nat)
    requires n <= |lines|
    ensures SettledBy(lines[..n]) <= SettledBy(lines)
    decreases n
  {
    if n > 0 {
      assert lines[..n] == [lines[0]] + lines[1..][..n - 1];
      assert lines == [lines[0]] + lines[1..];
      SettledByCons(lines[0], lines[1..][..n - 1]);
      SettledByCons(lines[0], lines[1..]);
      SettledByPrefix(lines[1..], n - 1);
    }
  }

  /** The invoice counter after an accepted checkout: the current session's
      counter and its stored record both move to the number the sale was
      given, and no other session changes. */
  predicate Numbered(st: Pos, r: CheckoutResult) {
    && r.st.current == Bumped(st.current, NextInvoiceId(st.current))
    && r.st.db.sessions.rows.Keys == st.db.sessions.rows.Keys
    && r.st.db.sessions.nextId == st.db.sessions.nextId
    && (forall k :: k in st.db.sessions.rows && Some(k) != SessionKey(st.current) ==>
          r.st.db.sessions.rows[k] == st.db.sessions.rows[k])
    && (st.current.Some? && st.current.value.id in st.db.sessions.rows ==>
          r.st.db.sessions.rows[st.current.value.id]
            == st.db.sessions.rows[st.current.value.id].(invoiceCounter := Some(NextInvoiceId(st.current))))
  }

  /** Numbering a sale writes only a counter, so no session changes status. */
  lemma NumberedNoReopen(st: Pos, r: CheckoutResult)
    requires Numbered(st, r)
    ensures NoReopen(st.db.sessions, r.st.db.sessions)
    ensures forall k :: k in st.db.sessions.rows ==> r.st.db.sessions.rows[k].status == st.db.sessions.rows[k].status
  {
  }

  /** An accepted checkout stores its sale under the next free key,
      numbered by the counter, and the stored row is exactly `sale` unless
      a settlement line names the new, not yet issued, key. */
  predicate StoresSale(st: Pos, sale: Sale, r: CheckoutResult)
    requires !r.outcome.Rejected?
  {
    var k := r.outcome.saleId;
    && k == st.db.sales.nextId && k in r.st.db.sales.rows
    && r.st.db.sales.rows[k].invoiceNo == NextInvoiceId(st.current)
    && (SettlesStoredSales(st.cart, st.db.sales) ==>
          r.st.db.sales.rows[k] == sale)
  }

  /** An accepted checkout adds one sale row, under the key it reports, and
      leaves the goods-received notes, the expenses and the goods-received
      list alone. */
  predicate AddsOnlyTheSale(st: Pos, r: CheckoutResult)
    requires !r.outcome.Rejected?
  {
    && r.st.db.sales.rows.Keys == st.db.sales.rows.Keys + {r.outcome.saleId}
    && r.st.db.sales.nextId == st.db.sales.nextId + 1
    && r.st.db.grns == st.db.grns && r.st.db.expenses == st.db.expenses
    && r.st.grnCart == st.grnCart
  }

  /** Every part's stock falls by exactly the units `lines` asked for; no
      part is added or removed. */
  predicate TakesStock(st: Pos, r: CheckoutResult, lines: seq<CartLine>) {
    && r.st.db.inventory.Keys == st.db.inventory.Keys
    && forall id :: id in st.db.inventory ==>
         r.st.db.inventory[id] == st.db.inventory[id].(stock := st.db.inventory[id].stock - QtyFor(lines, id))
  }

  /** The old sales are kept, each marked paid exactly when a settlement
      line among `lines` lists it and otherwise unchanged. */
  predicate SettlesCredit(st: Pos, r: CheckoutResult, lines: seq<CartLine>) {
    forall k :: k in st.db.sales.rows ==>
      k in r.st.db.sales.rows &&
      r.st.db.sales.rows[k] == if k in SettledBy(lines) then st.db.sales.rows[k].(isPaid := Some(true)) else st.db.sales.rows[k]
  }

  /** So a checkout changes an old sale in one way only: it may settle it. */
  lemma SettlesCreditOnlySettles(st: Pos, r: CheckoutResult, lines: seq<CartLine>)
    requires SettlesCredit(st, r, lines)
    ensures OnlySettles(st.db.sales, r.st.db.sales)
  {
  }

  /** Where an interrupted checkout stopped: at a part line, every part line
      before it naming a stored part and its own part no longer stored. */
  predicate Stopped(st: Pos, n: nat) {
    && n < |st.cart| && st.cart[n].Item? && st.cart[n].itemId !in st.db.inventory
    && forall i :: 0 <= i < n && st.cart[i].Item? ==> st.cart[i].itemId in st.db.inventory
  }

  /** The customer ledger after a completed checkout: the customer found by
      the phone on the stored sale (the one entered, or "-") is upserted
      with the sale's name, vehicle and total and the points being
      redeemed. */
  predicate EarnsPoints(st: Pos, sale: Sale, r: CheckoutResult) {
    r.st.db.customers == UpsertCustomer(st.db.customers, sale.customerPhone, sale.customerName, sale.vehicleNo, sale.total, st.redeemedPoints)
  }

  /** `checkout(method)`. Validation comes first and changes nothing. An
      accepted checkout bumps the counter and stores the sale, then runs the
      line loop; a part line naming a part no longer stored throws there
      (`Interrupted`), leaving the sale and the counter written, the lines
      before it applied and the customer, cart and points untouched.
      Otherwise (`Completed`) the customer is upserted and the cart and the
      redemption are cleared. */
  method Checkout(st: Pos, form: CheckoutForm, pay: PaymentMethod, now: Clock) returns (r: CheckoutResult)
    requires st.db.Valid()
    ensures r.outcome == Rejected(EmptyCart) <==> st.cart == []
    ensures r.outcome == Rejected(MissingVehicle) <==> st.cart != [] && Trim(form.vehicleNo) == []
    ensures r.outcome.Rejected? <==> st.cart == [] || Trim(form.vehicleNo) == []
    ensures r.outcome.Rejected? ==> r.st == st
    ensures !r.outcome.Rejected? ==>
      var sale := NewSale(st, ReadEntry(form), form, pay, now, NextInvoiceId(st.current));
      && r.st.db.Valid() && r.st.user == st.user && r.st.pending == st.pending
      && AddsOnlyTheSale(st, r)
      && Numbered(st, r) && StoresSale(st, sale, r)
      && (r.outcome.Completed? <==> forall i :: 0 <= i < |st.cart| && st.cart[i].Item? ==> st.cart[i].itemId in st.db.inventory)
      && (r.outcome.Completed? ==>
            && TakesStock(st, r, st.cart) && SettlesCredit(st, r, st.cart) && EarnsPoints(st, sale, r)
            && r.st.cart == [] && r.st.redeemedPoints == 0)
      && (r.outcome.Interrupted? ==>
            && Stopped(st, r.outcome.linesRun)
            && TakesStock(st, r, st.cart[..r.outcome.linesRun])
            && SettlesCredit(st, r, st.cart[..r.outcome.linesRun])
            && r.st.db.customers == st.db.customers
            && r.st.cart == st.cart && r.st.redeemedPoints == st.redeemedPoints)
  {
    var e := ReadEntry(form);
    if st.cart == [] {
      return CheckoutResult(st, Rejected(EmptyCart));
    }
    if e.vehicleNo == [] {
      return CheckoutResult(st, Rejected(MissingVehicle));
    }
    r := Commit(st, NewSale(st, e, form, pay, now, NextInvoiceId(st.current)));
  }

  /** The part of `checkout` after validation and after the sale record was
      built: the counter is written, the sale stored, the line loop run,
      and, when it did not throw, the customer upserted and the cart
      cleared. */
  method Commit(st: Pos, sale: Sale) returns (r: CheckoutResult)
    requires st.db.Valid() && sale.invoiceNo == NextInvoiceId(st.current)
    ensures !r.outcome.Rejected?
    ensures r.st.db.Valid() && r.st.user == st.user && r.st.pending == st.pending
    ensures AddsOnlyTheSale(st, r)
    ensures Numbered(st, r) && StoresSale(st, sale, r)
    ensures r.outcome.Completed? <==> forall i :: 0 <= i < |st.cart| && st.cart[i].Item? ==> st.cart[i].itemId in st.db.inventory
    ensures r.outcome.Completed? ==>
      && TakesStock(st, r, st.cart) && SettlesCredit(st, r, st.cart) && EarnsPoints(st, sale, r)
      && r.st.cart == [] && r.st.redeemedPoints == 0
    ensures r.outcome.Interrupted? ==>
      && Stopped(st, r.outcome.linesRun)
      && TakesStock(st, r, st.cart[..r.outcome.linesRun])
      && SettlesCredit(st, r, st.cart[..r.outcome.linesRun])
      && r.st.db.customers == st.db.customers
      && r.st.cart == st.cart && r.st.redeemedPoints == st.redeemedPoints
  {
    var (sales1, saleId) := st.db.sales.Add(sale);
    var db1 := st.db.(sessions := BumpStored(st.db.sessions, st.current, sale.invoiceNo), sales := sales1);
    var applied := RunLines(db1, st.cart);
    if SettlesStoredSales(st.cart, st.db.sales) {
      SettledByPrefix(st.cart, applied.done);
    }
    if applied.done < |st.cart| {
      r := CheckoutResult(st.(db := applied.db, current := Bumped(st.current, sale.invoiceNo)), Interrupted(saleId, applied.done));
    } else {
      assert st.cart[..applied.done] == st.cart;
      assert applied.db.customers == st.db.customers;
      var customers := UpsertCustomer(applied.db.customers, sale.customerPhone, sale.customerName,
                                      sale.vehicleNo, sale.total, st.redeemedPoints);
      r := CheckoutResult(st.(db := applied.db.(customers := customers), current := Bumped(st.current, sale.invoiceNo),
                              redeemedPoints := 0, cart := []),
                          Completed(saleId));
    }
  }

  /** A known customer redeems the points the loyalty panel shows, and the
      sale is then checked out with the discount field as the redemption
      left it. The redemption is charged exactly once: the sale's discount
      grows by the `p` points redeemed, its total stays non-negative, and a
      completed checkout moves the customer's balance by exactly
      `earned - p` and sets nothing aside for the next sale. */
  method RedeemThenCheckout(st: Pos, form: CheckoutForm, pay: PaymentMethod, now: Clock) returns (p: int, r: CheckoutResult)
    requires st.db.Valid()
    requires ReadEntry(form).customerPhone in st.db.customers
    requires Redeem(st, st.db.customers[ReadEntry(form).customerPhone].points, form.discount, true).Ok?
    ensures var phone := ReadEntry(form).customerPhone;
      0 < p <= st.db.customers[phone].points && p <= Subtotal(st.cart) - form.discount
    ensures r.outcome.Rejected? <==> st.cart == [] || Trim(form.vehicleNo) == []
    ensures !r.outcome.Rejected? && SettlesStoredSales(st.cart, st.db.sales) ==>
      && r.outcome.saleId in r.st.db.sales.rows
      && r.st.db.sales.rows[r.outcome.saleId].discount == form.discount + p
      && r.st.db.sales.rows[r.outcome.saleId].total >= 0
    ensures r.outcome.Completed? ==>
      var phone := ReadEntry(form).customerPhone;
      && phone in r.st.db.customers
      && r.st.db.customers[phone].points
           == st.db.customers[phone].points - p + EarnedPoints(Subtotal(st.cart) - form.discount - p)
      && r.st.redeemedPoints == 0
  {
    var phone := ReadEntry(form).customerPhone;
    var red := Redeem(st, st.db.customers[phone].points, form.discount, true).value;
    p := red.st.redeemedPoints;
    var form' := form.(discount := red.discount);
    assert ReadEntry(form') == ReadEntry(form);
    r := Checkout(red.st, form', pay, now);
    if r.outcome.Completed? {
      ExistingCustomerPoints(st.db.customers, phone, ReadEntry(form).customerName, ReadEntry(form).vehicleNo,
                             Subtotal(st.cart) - red.discount, p);
    }
  }

  /** The line loop of an accepted checkout, run on the database with the
      new sale stored. It runs `ApplyLines` and gathers the per-part and
      per-sale facts proved about it into one contract: it stops at the
      first part line whose part is not stored; every part's stock falls by
      the units of the lines that ran; a stored sale is marked paid exactly
      when a settlement line that ran lists it; nothing else changes. */
  method RunLines(db: Db, lines: seq<CartLine>) returns (a: Applied)
    ensures a.done <= |lines|
    ensures a.done == |lines| <==> forall i :: 0 <= i < |lines| && lines[i].Item? ==> lines[i].itemId in db.inventory
    ensures a.done < |lines| ==> lines[a.done].Item? && lines[a.done].itemId !in db.inventory
    ensures forall i :: 0 <= i < a.done && lines[i].Item? ==> lines[i].itemId in db.inventory
    ensures a.db.inventory.Keys == db.inventory.Keys
    ensures forall id :: id in db.inventory ==>
      a.db.inventory[id] == db.inventory[id].(stock := db.inventory[id].stock - QtyFor(lines[..a.done], id))
    ensures a.db.sales.nextId == db.sales.nextId && a.db.sales.rows.Keys == db.sales.rows.Keys
    ensures forall k :: k in db.sales.rows ==>
      a.db.sales.rows[k] == if k in SettledBy(lines[..a.done]) then db.sales.rows[k].(isPaid := Some(true)) else db.sales.rows[k]
    ensures a.db.sessions == db.sessions && a.db.customers == db.customers
    ensures a.db.grns == db.grns && a.db.expenses == db.expenses
  {
    a := ApplyLines(db, lines);
    ApplyLinesStops(db, lines);
    forall id | id in db.inventory
      ensures a.db.inventory[id] == db.inventory[id].(stock := db.inventory[id].stock - QtyFor(lines[..a.done], id))
    {
      ApplyLinesStock(db, lines, id);
    }
    forall k | k in db.sales.rows
      ensures a.db.sales.rows[k] == if k in SettledBy(lines[..a.done]) then db.sales.rows[k].(isPaid := Some(true)) else db.sales.rows[k]
    {
      ApplyLinesSettles(db, lines, k);
    }
  }

  // ---------------------------------------------------------------------
  // Invoice numbering over a run of checkouts

  /** One sale rung up: its cart and the checkout panel as submitted. */
  datatype Order = Order(cart: seq<CartLine>, form: CheckoutForm, pay: PaymentMethod, now: Clock)

  predicate Accepts(o: Order) {
    o.cart != [] && Trim(o.form.vehicleNo) != []
  }

  /** How many of the orders pass validation. */
  function AcceptedCount(orders: seq<Order>): nat {
    if orders == [] then 0
    else AcceptedCount(orders[..|orders| - 1]) + (if Accepts(orders[|orders| - 1]) then 1 else 0)
  }

  /** One order rung up on the current state: the checkout runs on the
      order's cart, and the invoice number of the sale it stored (read back
      from the sales table) is reported, or nothing when it was rejected. */
  method CheckoutStep(st: Pos, o: Order) returns (st': Pos, invoice: Option<int>)
    requires st.db.Valid()
    ensures st'.db.Valid()
    ensures invoice.Some? <==> Accepts(o)
    ensures invoice.None? ==> st' == st.(cart := o.cart)
    ensures invoice.Some? ==>
      && invoice.value == NextInvoiceId(st.current)
      && st'.current == Bumped(st.current, invoice.value)
    ensures st'.db.sessions.rows.Keys == st.db.sessions.rows.Keys
    ensures invoice.Some? && st.current.Some? && st.current.value.id in st.db.sessions.rows ==>
      st'.db.sessions.rows[st.current.value.id].invoiceCounter == Some(invoice.value)
  {
    var c := Checkout(st.(cart := o.cart), o.form, o.pay, o.now);
    st' := c.st;
    if c.outcome.Rejected? {
      invoice := None;
    } else {
      invoice := Some(c.st.db.sales.rows[c.outcome.saleId].invoiceNo);
    }
  }

  /** Checkouts one after another, each of its own cart, collecting the
      invoice number of every sale stored. Within one session the numbers
      run consecutively from the session's counter, one per accepted
      checkout, with no gap and no repeat, and the counter ends at the last
      number issued, both in memory and in the stored session, so a reload
      carries on from it. Without a current session nothing is counted:
      every sale of the run is invoice number 1. */
  method RunCheckouts(st: Pos, orders: seq<Order>) returns (st': Pos, nums: seq<int>)
    requires st.db.Valid()
    ensures st'.db.Valid()
    ensures |nums| == AcceptedCount(orders)
    ensures st.current.Some? ==>
      && st'.current.Some? && st'.current.value.id == st.current.value.id
      && Counter(st'.current.value.session) == Counter(st.current.value.session) + |nums|
      && forall i :: 0 <= i < |nums| ==> nums[i] == Counter(st.current.value.session) + i + 1
    ensures st.current.None? ==> st'.current.None? && forall i :: 0 <= i < |nums| ==> nums[i] == 1
    ensures nums == [] ==> st'.db.sessions == st.db.sessions
    ensures st.current.Some? && st.current.value.id in st.db.sessions.rows ==>
      && st.current.value.id in st'.db.sessions.rows
      && (nums != [] ==> st'.db.sessions.rows[st.current.value.id].invoiceCounter == Some(nums[|nums| - 1]))
  {
    st', nums := st, [];
    var i := 0;
    while i < |orders|
      invariant 0 <= i <= |orders|
      invariant st'.db.Valid()
      invariant |nums| == AcceptedCount(orders[..i])
      invariant st.current.Some? ==>
        && st'.current.Some? && st'.current.value.id == st.current.value.id
        && Counter(st'.current.value.session) == Counter(st.current.value.session) + |nums|
        && forall j :: 0 <= j < |nums| ==> nums[j] == Counter(st.current.value.session) + j + 1
      invariant st.current.None? ==> st'.current.None? && forall j :: 0 <= j < |nums| ==> nums[j] == 1
      invariant nums == [] ==> st'.db.sessions == st.db.sessions
      invariant st'.db.sessions.rows.Keys == st.db.sessions.rows.Keys
      invariant st.current.Some? && st.current.value.id in st.db.sessions.rows && nums != [] ==>
        st'.db.sessions.rows[st.current.value.id].invoiceCounter == Some(nums[|nums| - 1])
    {
      var invoice;
      st', invoice := CheckoutStep(st', orders[i]);
      if invoice.Some? {
        nums := nums + [invoice.value];
      }
      assert orders[..i + 1][..i] == orders[..i];
      i := i + 1;
    }
    assert orders[..i] == orders;
  }

  /** A day started with no other open session for the user numbers its
      sales 1, 2, …, N and leaves its counter at N, in memory and in the
      stored session. */
  method FreshDay(st: Pos, float: int, now: int, orders: seq<Order>) returns (st': Pos, nums: seq<int>)
    requires st.db.Valid() && st.user.Some? && !HasOpenSession(st.db.sessions, st.user.value)
    ensures |nums| == AcceptedCount(orders)
    ensures forall i :: 0 <= i < |nums| ==> nums[i] == i + 1
    ensures st'.current.Some? && Counter(st'.current.value.session) == |nums|
    ensures st'.current.value.id == st.db.sessions.nextId && st'.current.value.id in st'.db.sessions.rows
    ensures st'.db.sessions.rows[st'.current.value.id].invoiceCounter == Some(|nums|)
  {
    StartNewDayFresh(st, float, now);
    var day := StartNewDay(st, float, now).value;
    assert day.db.sessions.rows[st.db.sessions.nextId] == NewSession(st.user.value, float, now);
    st', nums := RunCheckouts(day, orders);
  }
}

=== FILE: common.dfy ===
/** Shared vocabulary of the garage point-of-sale model: optional values,
    the error outcomes the application reports with a toast, the string
    helpers the forms rely on (`trim`, `toUpperCase`, `x || default`), and
    sums over sequences, both as the program folds them and as plain sums. */
module Common {

  datatype Option<T> = None | Some(value: T)

  /** Every reason an operation of the core gives up without changing state. */
  datatype Error =
    | EmptyCart              // "Cart is empty!"
    | MissingVehicle         // "Please enter Vehicle Number"
    | NoActiveSession        // "No active session"
    | SessionDataLost        // "Session data lost. Please try again."
    | NoPointsToRedeem       // "No points to redeem!"
    | BillAlreadyZero        // "Bill total is already zero!"
    | RedemptionDeclined     // the confirmation dialog was answered "no"
    | NoVehicleEntered       // silent return of the credit lookup
    | NoOutstandingCredit    // silent return when the unpaid total is 0
    | CreditAlreadyInCart    // "Credit already added to cart"
    | UnknownItem            // the catalog has no such item or it is out of stock
    | UnknownService         // the service list has no such entry
    | InvalidAmount          // "Please enter a valid amount" / "Invalid amount"
    | NoItemSelected         // "Please select an item from the list"
    | NonPositiveQuantity    // "Quantity must be greater than 0"
    | EmptyGrn               // "GRN items list is empty!"
    | NoSupplier             // "Please select a registered supplier"
    | NotLoggedIn            // no current user

  datatype Result<T> = Ok(value: T) | Err(error: Error)

  function Min(a: int, b: int): int { if a <= b then a else b }
  function Max(a: int, b: int): int { if a >= b then a else b }

  // ---------------------------------------------------------------------
  // Strings

  /** The characters `String.prototype.trim` strips that can reach a form
      field here (line terminators and the ASCII and no-break spaces). */
  predicate IsSpace(c: char) {
    c == ' ' || c == '\t' || c == '\n' || c == '\r' || c == '\U{000B}' || c == '\U{000C}' || c == '\U{00A0}'
  }

  function TrimStart(s: string): string {
    if |s| > 0 && IsSpace(s[0]) then TrimStart(s[1..]) else s
  }

  function TrimEnd(s: string): string {
    if |s| > 0 && IsSpace(s[|s| - 1]) then TrimEnd(s[..|s| - 1]) else s
  }

  /** `trimStart` keeps a suffix that does not start with a space, and cuts
      off only spaces. */
  lemma {:induction false} TrimStartSuffix(s: string)
    ensures |TrimStart(s)| <= |s| && TrimStart(s) == s[|s| - |TrimStart(s)|..]
    ensures TrimStart(s) == [] || !IsSpace(TrimStart(s)[0])
    ensures forall i :: 0 <= i < |s| - |TrimStart(s)| ==> IsSpace(s[i])
    decreases |s|
  {
    if |s| > 0 && IsSpace(s[0]) {
      TrimStartSuffix(s[1..]);
    }
  }

  /** `trimEnd` keeps a prefix that does not end with a space, and cuts off
      only spaces. */
  lemma {:induction false} TrimEndPrefix(s: string)
    ensures |TrimEnd(s)| <= |s| && TrimEnd(s) == s[..|TrimEnd(s)|]
    ensures TrimEnd(s) == [] || !IsSpace(TrimEnd(s)[|TrimEnd(s)| - 1])
    ensures forall i :: |TrimEnd(s)| <= i < |s| ==> IsSpace(s[i])
    decreases |s|
  {
    if |s| > 0 && IsSpace(s[|s| - 1]) {
      TrimEndPrefix(s[..|s| - 1]);
    }
  }

  /** How many leading spaces `trim` cuts off. */
  function LeadingSpaces(s: string): (n: nat)
    ensures n <= |s|
  {
    TrimStartSuffix(s);
    |s| - |TrimStart(s)|
  }

  /** `s.trim()`. */
  function Trim(s: string): (r: string)
    ensures |r| <= |s|
  {
    TrimStartSuffix(s);
    TrimEndPrefix(TrimStart(s));
    TrimEnd(TrimStart(s))
  }

  /** What `trim` keeps is the slice of `s` that neither starts nor ends
      with a space; everything cut off is space. */
  lemma TrimSlice(s: string)
    ensures LeadingSpaces(s) + |Trim(s)| <= |s|
    ensures Trim(s) == s[LeadingSpaces(s)..LeadingSpaces(s) + |Trim(s)|]
    ensures Trim(s) == [] || (!IsSpace(Trim(s)[0]) && !IsSpace(Trim(s)[|Trim(s)| - 1]))
    ensures forall i :: 0 <= i < LeadingSpaces(s) ==> IsSpace(s[i])
    ensures forall i :: LeadingSpaces(s) + |Trim(s)| <= i < |s| ==> IsSpace(s[i])
  {
    var t := TrimStart(s);
    var r := TrimEnd(t);
    TrimStartSuffix(s);
    TrimEndPrefix(t);
    assert r == s[|s| - |t|..][..|r|];
    assert forall i :: LeadingSpaces(s) + |r| <= i < |s| ==> s[i] == t[i - LeadingSpaces(s)];
  }

  /** A field is blank exactly when it holds nothing but spaces. */
  lemma TrimEmptyIffAllSpace(s: string)
    ensures Trim(s) == [] <==> forall i :: 0 <= i < |s| ==> IsSpace(s[i])
  {
    var r := Trim(s);
    TrimSlice(s);
    if r != [] {
      assert s[LeadingSpaces(s)] == r[0];
    }
  }

  /** `s || dflt` on a string: the empty string is falsy. */
  function OrDefault(s: string, dflt: string): (r: string)
    ensures s != [] ==> r == s
    ensures s == [] ==> r == dflt
  {
    if s == [] then dflt else s
  }

  function UpperChar(c: char): (u: char)
    ensures 'a' <= c <= 'z' ==> u as int == c as int - 32
    ensures !('a' <= c <= 'z') ==> u == c
  {
    if 'a' <= c <= 'z' then (c as int - 32) as char else c
  }

  /** `toUpperCase` restricted to ASCII letters. */
  function ToUpper(s: string): string {
    if s == [] then [] else [UpperChar(s[0])] + ToUpper(s[1..])
  }

  /** Upper-casing works character by character. */
  lemma {:induction false} ToUpperPointwise(s: string)
    ensures |ToUpper(s)| == |s|
    ensures forall i :: 0 <= i < |s| ==> ToUpper(s)[i] == UpperChar(s[i])
    decreases |s|
  {
    if s != [] {
      ToUpperPointwise(s[1..]);
    }
  }

  predicate IsUpperCased(s: string) {
    forall i :: 0 <= i < |s| ==> !('a' <= s[i] <= 'z')
  }

  /** Upper-casing lands in upper case, so doing it twice changes nothing. */
  lemma ToUpperIdempotent(s: string)
    ensures IsUpperCased(ToUpper(s))
    ensures ToUpper(ToUpper(s)) == ToUpper(s)
  {
    ToUpperPointwise(s);
    ToUpperPointwise(ToUpper(s));
  }

  // ---------------------------------------------------------------------
  // Sums

  /** Σ f(x) over `s`: the reference sum the folds are proved equal to. */
  function Sum<T>(s: seq<T>, f: T -> int): int
  {
    if s == [] then 0 else f(s[0]) + Sum(s[1..], f)
  }

  /** `s.reduce((sum, x) => sum + f(x), acc)`, the way the program adds up. */
  function Reduce<T>(s: seq<T>, f: T -> int, acc: int): int
  {
    if s == [] then acc else Reduce(s[1..], f, acc + f(s[0]))
  }

  lemma {:induction false} ReduceIsSum<T>(s: seq<T>, f: T -> int, acc: int)
    ensures Reduce(s, f, acc) == acc + Sum(s, f)
    decreases |s|
  {
    if s != [] {
      ReduceIsSum(s[1..], f, acc + f(s[0]));
    }
  }

  lemma {:induction false} SumAppend<T>(a: seq<T>, b: seq<T>, f: T -> int)
    ensures Sum(a + b, f) == Sum(a, f) + Sum(b, f)
    decreases |a|
  {
    if a == [] {
      assert a + b == b;
    } else {
      assert (a + b)[1..] == a[1..] + b;
      SumAppend(a[1..], b, f);
    }
  }

  /** Sum of a sequence with one element dropped. */
  lemma SumRemove<T>(s: seq<T>, k: nat, f: T -> int)
    requires k < |s|
    ensures Sum(s[..k] + s[k + 1..], f) == Sum(s, f) - f(s[k])
  {
    SumAppend(s[..k], s[k + 1..], f);
    SumAppend(s[..k], s[k..], f);
    assert s[..k] + s[k..] == s;
    assert s[k..][1..] == s[k + 1..];
  }

  lemma SumSnoc<T>(s: seq<T>, x: T, f: T -> int)
    ensures Sum(s + [x], f) == Sum(s, f) + f(x)
  {
    SumAppend(s, [x], f);
  }

  /** Two sequences that agree under `f` position by position have the same
      sum. */
  lemma {:induction false} SumPointwise<T, U>(a: seq<T>, f: T -> int, b: seq<U>, g: U -> int)
    requires |a| == |b| && forall i :: 0 <= i < |a| ==> f(a[i]) == g(b[i])
    ensures Sum(a, f) == Sum(b, g)
    decreases |a|
  {
    if a != [] {
      assert forall i :: 0 <= i < |a[1..]| ==> a[1..][i] == a[i + 1] && b[1..][i] == b[i + 1];
      SumPointwise(a[1..], f, b[1..], g);
    }
  }

  /** `s.filter(p)`. */
  function Filter<T>(s: seq<T>, p: T -> bool): (r: seq<T>)
    ensures |r| <= |s|
    ensures forall i :: 0 <= i < |r| ==> r[i] in s && p(r[i])
  {
    if s == [] then []
    else if p(s[0]) then [s[0]] + Filter(s[1..], p)
    else Filter(s[1..], p)
  }
}

=== FILE: credit.dfy ===
/** Credit sales and their settlement: folding a vehicle's unpaid credit
    into the current bill as one line, marking a sale paid by hand, and the
    rule that a sale's `isPaid` only ever moves towards true. */
module Credit {
  import opened Common
  import opened Records
  import opened Cart

  function UnpaidCreditOf(vNo: string): Sale -> bool {
    (s: Sale) => s.vehicleNo == vNo && IsUnpaidCredit(s)
  }

  /** The keys of the vehicle's unpaid credit sales, in key order. */
  function UnpaidCreditKeys(sales: Table<Sale>, vNo: string): (ks: seq<nat>)
    requires sales.Valid()
    ensures forall i :: 0 <= i < |ks| ==> ks[i] in sales.rows
    ensures forall k :: k in ks <==> k in sales.rows && sales.rows[k].vehicleNo == vNo && IsUnpaidCredit(sales.rows[k])
    ensures forall i, j :: 0 <= i < j < |ks| ==> ks[i] < ks[j]
  {
    Where(sales, UnpaidCreditOf(vNo))
  }

  /** The vehicle's outstanding credit: the total of its unpaid credit sales. */
  function OutstandingCredit(sales: Table<Sale>, vNo: string): (r: int)
    requires sales.Valid()
    ensures r == Sum(Rows(sales, UnpaidCreditKeys(sales, vNo)), SaleTotal)
  {
    var unpaid := Rows(sales, UnpaidCreditKeys(sales, vNo));
    ReduceIsSum(unpaid, SaleTotal, 0);
    Reduce(unpaid, SaleTotal, 0)
  }

  predicate HasCreditLine(cart: seq<CartLine>) {
    exists i :: 0 <= i < |cart| && cart[i].CreditPayment?
  }

  /** `payOutstandingCredit`: with a vehicle number entered and a non-zero
      outstanding credit, appends one settlement line priced at that credit
      and listing exactly the unpaid sales it covers. It gives up when the
      field is blank, when the credit is zero, and when the cart already
      holds a settlement line. */
  function PayOutstandingCredit(cart: seq<CartLine>, sales: Table<Sale>, vehicleInput: string): (r: Result<seq<CartLine>>)
    requires sales.Valid()
    ensures var vNo := ToUpper(Trim(vehicleInput));
      && (r == Err(NoVehicleEntered) <==> vNo == [])
      && (r == Err(NoOutstandingCredit) <==> vNo != [] && OutstandingCredit(sales, vNo) == 0)
      && (r == Err(CreditAlreadyInCart) <==> vNo != [] && OutstandingCredit(sales, vNo) != 0 && HasCreditLine(cart))
    ensures r.Ok? ==> |r.value| == |cart| + 1 && r.value[..|cart|] == cart
    ensures r.Ok? ==>
      var vNo := ToUpper(Trim(vehicleInput));
      var line := r.value[|cart|];
      && line.CreditPayment?
      && line.price == OutstandingCredit(sales, vNo)
      && (forall k :: k in line.originalSales <==>
            k in sales.rows && sales.rows[k].vehicleNo == vNo && IsUnpaidCredit(sales.rows[k]))
  {
    var vNo := ToUpper(Trim(vehicleInput));
    if vNo == [] then Err(NoVehicleEntered)
    else
      var totalCredit := OutstandingCredit(sales, vNo);
      if totalCredit == 0 then Err(NoOutstandingCredit)
      else if HasCreditLine(cart) then Err(CreditAlreadyInCart)
      else
        var line := CreditPayment("OLD CREDIT (" + vNo + ")", totalCredit, UnpaidCreditKeys(sales, vNo));
        assert (cart + [line])[..|cart|] == cart;
        Ok(cart + [line])
  }

  /** A settlement line appended by `PayOutstandingCredit` is the cart's only
      one: the operation never yields a second. */
  lemma PayOutstandingCreditSingleLine(cart: seq<CartLine>, sales: Table<Sale>, vehicleInput: string)
    requires sales.Valid()
    requires PayOutstandingCredit(cart, sales, vehicleInput).Ok?
    ensures var c := PayOutstandingCredit(cart, sales, vehicleInput).value;
      forall i :: 0 <= i < |c| && c[i].CreditPayment? ==> i == |cart|
  {
  }

  /** `markAsPaid(id)`: sets the sale's `isPaid` to true; a missing key
      changes nothing. */
  function MarkAsPaid(sales: Table<Sale>, id: nat): (r: Table<Sale>)
    ensures r.nextId == sales.nextId && r.rows.Keys == sales.rows.Keys
    ensures id in sales.rows ==> IsPaid(r.rows[id]) && r.rows[id] == sales.rows[id].(isPaid := Some(true))
    ensures forall k :: k in sales.rows && k != id ==> r.rows[k] == sales.rows[k]
  {
    if id in sales.rows then sales.Put(id, sales.rows[id].(isPaid := Some(true))) else sales
  }

  /** The only change allowed to a stored sale: `isPaid` becoming true.
      Nothing is removed and no other field moves. */
  predicate OnlySettles(before: Table<Sale>, after: Table<Sale>) {
    && before.rows.Keys <= after.rows.Keys
    && forall k :: k in before.rows ==>
         (after.rows[k] == before.rows[k] || after.rows[k] == before.rows[k].(isPaid := Some(true)))
  }

  /** Under `OnlySettles` a paid sale stays paid. */
  lemma OnlySettlesKeepsPaid(before: Table<Sale>, after: Table<Sale>, k: nat)
    requires OnlySettles(before, after) && k in before.rows && IsPaid(before.rows[k])
    ensures k in after.rows && IsPaid(after.rows[k])
  {
  }

  lemma OnlySettlesTransitive(a: Table<Sale>, b: Table<Sale>, c: Table<Sale>)
    requires OnlySettles(a, b) && OnlySettles(b, c)
    ensures OnlySettles(a, c)
  {
    forall k | k in a.rows
      ensures c.rows[k] == a.rows[k] || c.rows[k] == a.rows[k].(isPaid := Some(true))
    {
      assert k in b.rows;
    }
  }

  lemma MarkAsPaidOnlySettles(sales: Table<Sale>, id: nat)
    ensures OnlySettles(sales, MarkAsPaid(sales, id))
  {
  }

  /** Marking paid twice is marking paid once. */
  lemma MarkAsPaidIdempotent(sales: Table<Sale>, id: nat)
    ensures MarkAsPaid(MarkAsPaid(sales, id), id) == MarkAsPaid(sales, id)
  {
  }
}

=== FILE: dayend.dfy ===
/** The end of a business day: the report that gathers the session's sales,
    the day's expenses and the float into the cash the drawer should hold,
    and the close that records the counted cash, closes the session and
    yields the final figures. */
module DayEnd {
  import opened Common
  import opened Records
  import opened Sessions

  function InSession(id: nat): Sale -> bool {
    (s: Sale) => s.sessionId == Some(id)
  }

  function OnDay(day: int): Expense -> bool {
    (e: Expense) => e.date == day
  }

  /** `Number(session.floatCash) || 0`. */
  function FloatOf(s: Session): int {
    match s.floatCash
    case Some(f) => f
    case None => 0
  }

  // ---------------------------------------------------------------------
  // The sums, as the program reduces them

  function SalesTotal(sales: seq<Sale>): (r: int)
    ensures r == Sum(sales, SaleTotal)
  {
    ReduceIsSum(sales, SaleTotal, 0);
    Reduce(sales, SaleTotal, 0)
  }

  function CashSalesTotal(sales: seq<Sale>): (r: int)
    ensures r == Sum(Filter(sales, IsCashSale), SaleTotal)
  {
    ReduceIsSum(Filter(sales, IsCashSale), SaleTotal, 0);
    Reduce(Filter(sales, IsCashSale), SaleTotal, 0)
  }

  function CreditSalesTotal(sales: seq<Sale>): (r: int)
    ensures r == Sum(Filter(sales, IsCreditSale), SaleTotal)
  {
    ReduceIsSum(Filter(sales, IsCreditSale), SaleTotal, 0);
    Reduce(Filter(sales, IsCreditSale), SaleTotal, 0)
  }

  function ProfitTotal(sales: seq<Sale>): (r: int)
    ensures r == Sum(sales, SaleProfit)
  {
    ReduceIsSum(sales, SaleProfit, 0);
    Reduce(sales, SaleProfit, 0)
  }

  /** The day's expenses: those dated `day`, whoever entered them. */
  function ExpensesOn(expenses: seq<Expense>, day: int): (r: int)
    ensures r == Sum(Filter(expenses, OnDay(day)), ExpenseAmount)
  {
    ReduceIsSum(Filter(expenses, OnDay(day)), ExpenseAmount, 0);
    Reduce(Filter(expenses, OnDay(day)), ExpenseAmount, 0)
  }

  /** Every sale is either cash or credit, so the two partial totals make
      up the whole. */
  lemma {:induction false} CashPlusCreditIsTotal(sales: seq<Sale>)
    ensures Sum(Filter(sales, IsCashSale), SaleTotal) + Sum(Filter(sales, IsCreditSale), SaleTotal) == Sum(sales, SaleTotal)
    decreases |sales|
  {
    if sales != [] {
      CashPlusCreditIsTotal(sales[1..]);
      if IsCashSale(sales[0]) {
        assert Filter(sales, IsCashSale) == [sales[0]] + Filter(sales[1..], IsCashSale);
        assert Filter(sales, IsCreditSale) == Filter(sales[1..], IsCreditSale);
        assert ([sales[0]] + Filter(sales[1..], IsCashSale))[1..] == Filter(sales[1..], IsCashSale);
      } else {
        assert Filter(sales, IsCreditSale) == [sales[0]] + Filter(sales[1..], IsCreditSale);
        assert Filter(sales, IsCashSale) == Filter(sales[1..], IsCashSale);
        assert ([sales[0]] + Filter(sales[1..], IsCreditSale))[1..] == Filter(sales[1..], IsCreditSale);
      }
    }
  }

  // ---------------------------------------------------------------------
  // The report

  /** The keys of the sales rung up in session `id`, in key order. */
  function SessionSaleKeys(sales: Table<Sale>, id: nat): (ks: seq<nat>)
    requires sales.Valid()
    ensures forall i :: 0 <= i < |ks| ==> ks[i] in sales.rows
    ensures forall k :: k in ks <==> k in sales.rows && sales.rows[k].sessionId == Some(id)
    ensures forall i, j :: 0 <= i < j < |ks| ==> ks[i] < ks[j]
  {
    Where(sales, InSession(id))
  }

  /** `generateDayEndReport`: with no current session it gives up; otherwise
      it leaves for the close a snapshot of the session, its sales, the
      float, the cash taken, the day's expenses and the cash the drawer
      should hold, `float + cash sales - expenses`. Nothing is written. */
  function GenerateDayEndReport(st: Pos, today: int): (r: Result<Pos>)
    requires st.db.Valid()
    ensures st.current.None? <==> r.Err?
    ensures r.Err? ==> r.error == NoActiveSession
    ensures r.Ok? ==> r.value == st.(pending := r.value.pending) && r.value.pending.Some?
    ensures r.Ok? ==>
      var p := r.value.pending.value;
      var a := st.current.value;
      && p.session == a
      && p.sales == Rows(st.db.sales, SessionSaleKeys(st.db.sales, a.id))
      && p.float == FloatOf(a.session)
      && p.cashSales == Sum(Filter(p.sales, IsCashSale), SaleTotal)
      && p.expenses == Sum(Filter(st.db.expenses, OnDay(today)), ExpenseAmount)
      && p.expected == p.float + p.cashSales - p.expenses
  {
    match st.current
    case None => Err(NoActiveSession)
    case Some(a) =>
      var sales := Rows(st.db.sales, SessionSaleKeys(st.db.sales, a.id));
      var cash := CashSalesTotal(sales);
      var float := FloatOf(a.session);
      var expenses := ExpensesOn(st.db.expenses, today);
      Ok(st.(pending := Some(PendingDayEnd(a, sales, float, cash, expenses, float + cash - expenses))))
  }

  /** The report gathers exactly the session's sales: every one it lists
      belongs to the session, and every stored sale of the session is
      listed. */
  lemma ReportGathersSessionSales(st: Pos, today: int)
    requires st.db.Valid() && st.current.Some?
    ensures var p := GenerateDayEndReport(st, today).value.pending.value;
      && (forall i :: 0 <= i < |p.sales| ==> p.sales[i].sessionId == Some(st.current.value.id))
      && (forall k :: k in st.db.sales.rows && st.db.sales.rows[k].sessionId == Some(st.current.value.id) ==>
            st.db.sales.rows[k] in p.sales)
  {
    SessionRowsExact(st.db.sales, st.current.value.id);
  }

  lemma SessionRowsExact(sales: Table<Sale>, id: nat)
    requires sales.Valid()
    ensures var ss := Rows(sales, SessionSaleKeys(sales, id));
      && (forall i :: 0 <= i < |ss| ==> ss[i].sessionId == Some(id))
      && (forall k :: k in sales.rows && sales.rows[k].sessionId == Some(id) ==> sales.rows[k] in ss)
  {
    var ks := SessionSaleKeys(sales, id);
    var ss := Rows(sales, ks);
    forall k | k in sales.rows && sales.rows[k].sessionId == Some(id)
      ensures sales.rows[k] in ss
    {
      var i :| 0 <= i < |ks| && ks[i] == k;
      assert ss[i] == sales.rows[k];
    }
  }

  // ---------------------------------------------------------------------
  // The close

  /** The figures of the day-end print, journal entry and e-mail. */
  datatype DayEndReport = DayEndReport(
    totalSales: int,
    cashSales: int,
    creditSales: int,
    grossProfit: int,
    expenses: int,
    float: int,
    cashInHand: int,
    variance: int,
    netProfit: int)

  /** The cash recorded on the closed session: the amount counted when it is
      the current session, else the amount it already held (or 0). */
  function FinalCash(snapshot: ActiveSession, current: Option<ActiveSession>, cashHand: int): int {
    if current.Some? && current.value.id == snapshot.id then cashHand
    else match snapshot.session.cashInHand
      case Some(c) => c
      case None => 0
  }

  /** The session write of `processDayEnd`: when the snapshot says open, the
      stored session gets its end time, its cash and the status closed; an
      update of a key no longer stored writes nothing. */
  function CloseSession(sessions: Table<Session>, snapshot: ActiveSession, current: Option<ActiveSession>,
                        cashHand: int, now: int): (r: Table<Session>)
    ensures r.nextId == sessions.nextId && r.rows.Keys == sessions.rows.Keys
    ensures forall k :: k in sessions.rows && k != snapshot.id ==> r.rows[k] == sessions.rows[k]
    ensures snapshot.session.status == Open && snapshot.id in sessions.rows ==>
      r.rows[snapshot.id] == sessions.rows[snapshot.id].(endTime := Some(now),
                                                         cashInHand := Some(FinalCash(snapshot, current, cashHand)),
                                                         status := Closed)
    ensures snapshot.session.status != Open || snapshot.id !in sessions.rows ==> r == sessions
  {
    if snapshot.session.status == Open && snapshot.id in sessions.rows then
      sessions.Put(snapshot.id, sessions.rows[snapshot.id].(endTime := Some(now),
                                                          cashInHand := Some(FinalCash(snapshot, current, cashHand)),
                                                          status := Closed))
    else sessions
  }

  /** `processDayEnd`: without a pending report it gives up. Otherwise it
      closes the reported session if the snapshot says open, computes the
      final figures from the snapshot (the variance is the counted cash
      less the expected cash), clears the current session and the pending
      report and looks for an open session again. */
  function ProcessDayEnd(st: Pos, cashHand: int, now: int): (r: Result<(Pos, DayEndReport)>)
    requires st.db.Valid()
    ensures st.pending.None? <==> r.Err?
    ensures r.Err? ==> r.error == SessionDataLost
    ensures r.Ok? ==>
      var (st', m) := r.value;
      var p := st.pending.value;
      && st'.db.Valid() && st'.pending.None?
      && st'.db == st.db.(sessions := st'.db.sessions)
      && st'.cart == st.cart && st'.user == st.user
      && st'.redeemedPoints == st.redeemedPoints && st'.grnCart == st.grnCart
      && NoReopen(st.db.sessions, st'.db.sessions)
      && st'.db.sessions.nextId == st.db.sessions.nextId
      && st'.db.sessions.rows.Keys == st.db.sessions.rows.Keys
      && (forall k :: k in st.db.sessions.rows && k != p.session.id ==> st'.db.sessions.rows[k] == st.db.sessions.rows[k])
      && (p.session.session.status == Open && p.session.id in st.db.sessions.rows ==>
            && st'.db.sessions.rows[p.session.id].status == Closed
            && st'.db.sessions.rows[p.session.id].endTime == Some(now)
            && st'.db.sessions.rows[p.session.id].cashInHand == Some(FinalCash(p.session, st.current, cashHand)))
      && (st.user.None? ==> st'.current.None?)
      && (st.user.Some? ==> (st'.current.Some? <==> HasOpenSession(st'.db.sessions, st.user.value)))
    ensures r.Ok? ==>
      var m := r.value.1;
      var p := st.pending.value;
      && m.totalSales == Sum(p.sales, SaleTotal)
      && m.cashSales == p.cashSales && m.float == p.float && m.expenses == p.expenses
      && m.creditSales == Sum(Filter(p.sales, IsCreditSale), SaleTotal)
      && m.grossProfit == Sum(p.sales, SaleProfit)
      && m.cashInHand == cashHand
      && m.variance == cashHand - p.expected
      && m.netProfit == m.grossProfit - m.expenses
  {
    match st.pending
    case None => Err(SessionDataLost)
    case Some(p) =>
      var sessions := CloseSession(st.db.sessions, p.session, st.current, cashHand, now);
      var gross := ProfitTotal(p.sales);
      var m := DayEndReport(SalesTotal(p.sales), p.cashSales, CreditSalesTotal(p.sales), gross,
                            p.expenses, p.float, cashHand, cashHand - p.expected, gross - p.expenses);
      var st1 := st.(db := st.db.(sessions := sessions), current := None, pending := None);
      Ok((CheckSession(st1, now), m))
  }

  /** Closing a day consumes its report: a second close without a new report
      is turned away and changes nothing. */
  lemma DayEndOnce(st: Pos, cashHand: int, now: int, cashHand2: int, now2: int)
    requires st.db.Valid() && ProcessDayEnd(st, cashHand, now).Ok?
    ensures ProcessDayEnd(ProcessDayEnd(st, cashHand, now).value.0, cashHand2, now2) == Err(SessionDataLost)
  {
  }

  /** A report followed by its close: the cash and credit totals make up the
      total sales, the variance is the counted cash less `float + cash sales
      - expenses`, and the float is the session's. */
  lemma DayEndBalances(st: Pos, today: int, cashHand: int, now: int)
    requires st.db.Valid() && st.current.Some?
    ensures GenerateDayEndReport(st, today).Ok?
    ensures ProcessDayEnd(GenerateDayEndReport(st, today).value, cashHand, now).Ok?
    ensures var m := ProcessDayEnd(GenerateDayEndReport(st, today).value, cashHand, now).value.1;
      && m.cashSales + m.creditSales == m.totalSales
      && m.variance == cashHand - (m.float + m.cashSales - m.expenses)
      && m.float == FloatOf(st.current.value.session)
      && m.expenses == Sum(Filter(st.db.expenses, OnDay(today)), ExpenseAmount)
  {
    var p := GenerateDayEndReport(st, today).value.pending.value;
    CashPlusCreditIsTotal(p.sales);
  }

  /** The two sales of the worked day, cash first and credit second,
      split into their partial totals. */
  lemma TwoSaleTotals(ss: seq<Sale>)
    requires |ss| == 2
    requires ss[0].paymentMethod == Cash && ss[0].total == 1500
    requires ss[1].paymentMethod == Credit && ss[1].total == 800
    ensures Sum(Filter(ss, IsCashSale), SaleTotal) == 1500
    ensures Sum(Filter(ss, IsCreditSale), SaleTotal) == 800
  {
    assert ss[1..][1..] == [];
    assert Filter(ss[1..], IsCashSale) == [];
    assert Filter(ss, IsCashSale) == [ss[0]];
    assert Filter(ss[1..], IsCreditSale) == [ss[1]];
    assert Filter(ss, IsCreditSale) == [ss[1]];
  }

  /** A worked day: a float of 5000, a cash sale of
      1500 and a credit sale of 800 in the session, no expenses that day,
      and 6500 counted: the drawer balances to the rupee. */
  lemma DayEndScenario(st: Pos, today: int, now: int)
    requires st.db.Valid() && st.current.Some? && FloatOf(st.current.value.session) == 5000
    requires Filter(st.db.expenses, OnDay(today)) == []
    requires var ss := Rows(st.db.sales, SessionSaleKeys(st.db.sales, st.current.value.id));
      && |ss| == 2
      && ss[0].paymentMethod == Cash && ss[0].total == 1500
      && ss[1].paymentMethod == Credit && ss[1].total == 800
    ensures GenerateDayEndReport(st, today).Ok?
    ensures ProcessDayEnd(GenerateDayEndReport(st, today).value, 6500, now).Ok?
    ensures var m := ProcessDayEnd(GenerateDayEndReport(st, today).value, 6500, now).value.1;
      && m.cashSales == 1500 && m.creditSales == 800 && m.totalSales == 2300
      && m.variance == 0
  {
    TwoSaleTotals(Rows(st.db.sales, SessionSaleKeys(st.db.sales, st.current.value.id)));
    DayEndBalances(st, today, 6500, now);
  }
}

=== FILE: loyalty.dfy ===
/** Loyalty points: one point per full 100 of a sale's total, redeemable one
    for one as discount, kept on the customer record found by phone. */
module Loyalty {
  import opened Common
  import opened Records
  import opened Cart

  /** `Math.floor(total / 100)`. */
  function EarnedPoints(total: int): (r: int)
    ensures 100 * r <= total < 100 * (r + 1)
    ensures total >= 0 ==> r >= 0
    ensures total < 0 ==> r < 0
  {
    total / 100
  }

  datatype Redemption = Redemption(discount: int, redeemed: int)

  /** `redeemPoints`: with a positive balance and a positive bill, offers
      `min(points, bill)` as discount; once confirmed the discount grows by
      that amount and it becomes the number of points redeemed. */
  function RedeemPoints(points: int, cart: seq<CartLine>, existingDiscount: int, confirmed: bool): (r: Result<Redemption>)
    ensures var bill := Subtotal(cart) - existingDiscount;
      && (r == Err(NoPointsToRedeem) <==> points <= 0)
      && (r == Err(BillAlreadyZero) <==> points > 0 && bill <= 0)
      && (r == Err(RedemptionDeclined) <==> points > 0 && bill > 0 && !confirmed)
    ensures r.Ok? ==>
      var bill := Subtotal(cart) - existingDiscount;
      && 0 < r.value.redeemed <= points
      && r.value.redeemed <= bill
      && (r.value.redeemed == points || r.value.redeemed == bill)
      && r.value.discount == existingDiscount + r.value.redeemed
  {
    var currentTotal := Subtotal(cart) - existingDiscount;
    if points <= 0 then Err(NoPointsToRedeem)
    else if currentTotal <= 0 then Err(BillAlreadyZero)
    else
      var maxRedeemable := Min(points, currentTotal);
      if !confirmed then Err(RedemptionDeclined)
      else Ok(Redemption(existingDiscount + maxRedeemable, maxRedeemable))
  }

  /** A redemption never pushes the bill below zero: it takes the bill to
      zero exactly when the points cover it. */
  lemma RedemptionKeepsBillNonNegative(points: int, cart: seq<CartLine>, existingDiscount: int)
    requires RedeemPoints(points, cart, existingDiscount, true).Ok?
    ensures var d := RedeemPoints(points, cart, existingDiscount, true).value.discount;
      && Subtotal(cart) - d >= 0
      && (Subtotal(cart) - d == 0 <==> points >= Subtotal(cart) - existingDiscount)
  {
  }

  /** A confirmed redemption as the page sees it: the page state, whose
      `redeemedPoints` now holds the points to charge at checkout, and the
      new value of the discount field. */
  datatype Redeemed = Redeemed(st: Pos, discount: int)

  /** `redeemPoints` as a step of the page state. `points` is the balance
      the loyalty panel shows. On success the points to charge are
      overwritten with this redemption's points, whatever an earlier
      redemption left there, while the discount field adds them to what it
      already holds. Nothing else on the page changes. */
  function Redeem(st: Pos, points: int, existingDiscount: int, confirmed: bool): (r: Result<Redeemed>)
    ensures r.Err? <==> RedeemPoints(points, st.cart, existingDiscount, confirmed).Err?
    ensures r.Err? ==> r.error == RedeemPoints(points, st.cart, existingDiscount, confirmed).error
    ensures r.Ok? ==>
      var p := r.value.st.redeemedPoints;
      && r.value.st == st.(redeemedPoints := p)
      && r.value.discount == existingDiscount + p
      && 0 < p <= points && p <= Subtotal(st.cart) - existingDiscount
  {
    match RedeemPoints(points, st.cart, existingDiscount, confirmed)
    case Err(e) => Err(e)
    case Ok(red) => Ok(Redeemed(st.(redeemedPoints := red.redeemed), red.discount))
  }

  /** Redeeming twice on one cart (the redeem button is enabled again as
      the vehicle field is edited) grants both redemptions as discount but
      charges only the second one's points. */
  lemma RedeemTwice(st: Pos, points: int, existingDiscount: int)
    requires Redeem(st, points, existingDiscount, true).Ok?
    requires
      var first := Redeem(st, points, existingDiscount, true).value;
      Redeem(first.st, points, first.discount, true).Ok?
    ensures
      var first := Redeem(st, points, existingDiscount, true).value;
      var second := Redeem(first.st, points, first.discount, true).value;
      && second.discount - existingDiscount == first.st.redeemedPoints + second.st.redeemedPoints
      && second.st.redeemedPoints < second.discount - existingDiscount
  {
  }

  /** Clearing the cart (the Esc key) does not give back a redemption: the
      points set aside stay set aside, and the next checkout of a known
      customer charges them even though that customer redeemed nothing. */
  lemma RedemptionOutlivesClear(st: Pos, points: int, existingDiscount: int,
                                customers: map<string, Customer>, phone: string, name: string, vNo: string, total: int)
    requires Redeem(st, points, existingDiscount, true).Ok?
    ensures
      var after := ClearCart(Redeem(st, points, existingDiscount, true).value.st);
      && after.cart == [] && after.redeemedPoints > 0
      && after.redeemedPoints == Redeem(st, points, existingDiscount, true).value.discount - existingDiscount
      && (phone in customers && customers[phone].points + EarnedPoints(total) > 0 ==>
            UpsertCustomer(customers, phone, name, vNo, total, after.redeemedPoints)[phone].points
              < customers[phone].points + EarnedPoints(total))
  {
  }

  /** The double redemption worked through: a customer with 300 points and
      a bill of 1000 redeems twice, gets 600 off, and still ends the sale
      with 4 points (300 - 300 + floor(400 / 100)) instead of none. */
  lemma DoubleRedemptionScenario(st: Pos, customers: map<string, Customer>)
    requires Subtotal(st.cart) == 1000
    ensures Redeem(st, 300, 0, true).Ok?
    ensures
      var first := Redeem(st, 300, 0, true).value;
      && Redeem(first.st, 300, first.discount, true).Ok?
      && var second := Redeem(first.st, 300, first.discount, true).value;
      && second.discount == 600 && second.st.redeemedPoints == 300
      && UpsertCustomer(customers["077" := Customer("A", "WP-1", 300)], "077", "A", "WP-1",
                        1000 - second.discount, second.st.redeemedPoints)["077"].points == 4
  {
  }

  /** The customer upsert at the end of a checkout: an existing customer (by
      phone) gets the new name and vehicle and `max(0, points - redeemed +
      earned)`; an unknown phone gets a new record holding exactly the
      points earned. */
  function UpsertCustomer(customers: map<string, Customer>, phone: string, name: string, vNo: string, total: int, redeemed: int): (r: map<string, Customer>)
    ensures r.Keys == customers.Keys + {phone}
    ensures forall p :: p in customers && p != phone ==> r[p] == customers[p]
    ensures phone in customers ==>
      && r[phone].name == name && r[phone].vehicleNo == vNo
      && r[phone].points == Max(0, customers[phone].points - redeemed + EarnedPoints(total))
    ensures phone !in customers ==> r[phone] == Customer(name, vNo, EarnedPoints(total))
  {
    var earned := EarnedPoints(total);
    if phone in customers then
      var newPoints := customers[phone].points - redeemed + earned;
      customers[phone := Customer(name, vNo, Max(0, newPoints))]
    else
      customers[phone := Customer(name, vNo, earned)]
  }

  /** An existing customer's balance never goes negative, and when the
      redeemed points were available and the sale was not negative, the
      balance moves by exactly `earned - redeemed`. */
  lemma ExistingCustomerPoints(customers: map<string, Customer>, phone: string, name: string, vNo: string, total: int, redeemed: int)
    requires phone in customers
    ensures UpsertCustomer(customers, phone, name, vNo, total, redeemed)[phone].points >= 0
    ensures 0 <= redeemed <= customers[phone].points && total >= 0 ==>
      UpsertCustomer(customers, phone, name, vNo, total, redeemed)[phone].points
        == customers[phone].points - redeemed + EarnedPoints(total)
  {
  }

  /** The one path that leaves a negative balance: a new customer whose
      first sale has a negative total (a discount above the subtotal, which
      a checkout records unclamped) starts below zero. */
  lemma NewCustomerNegativePoints()
    ensures UpsertCustomer(map[], "0771234567", "A", "WP-1", -250, 0)["0771234567"].points == -3
  {
  }

  /** A phone is never stored twice: upserting twice with one phone adds at
      most one record. */
  lemma UpsertNoDuplicate(customers: map<string, Customer>, phone: string, name: string, vNo: string, total: int, redeemed: int)
    ensures |UpsertCustomer(customers, phone, name, vNo, total, redeemed).Keys| <= |customers.Keys| + 1
    ensures phone in customers ==> |UpsertCustomer(customers, phone, name, vNo, total, redeemed).Keys| == |customers.Keys|
  {
    var r := UpsertCustomer(customers, phone, name, vNo, total, redeemed);
    if phone in customers {
      assert r.Keys == customers.Keys;
    } else {
      assert r.Keys == customers.Keys + {phone};
    }
  }
}

=== FILE: purchases.dfy ===
/** Goods received notes (GRNs): the list of parts being received, the note
    that records them and restocks the inventory, what each supplier is
    owed, and a payment spread over the supplier's notes, oldest first. */
module Purchases {
  import opened Common
  import opened Records

  // ---------------------------------------------------------------------
  // The list of parts being received

  /** The line for part `id`, as `grnCart.find` returns it. */
  function FindGrnLine(cart: seq<GrnLine>, id: nat): (r: Option<nat>)
    ensures r.None? ==> forall j :: 0 <= j < |cart| ==> cart[j].itemId != id
    ensures r.Some? ==> r.value < |cart| && cart[r.value].itemId == id
    ensures r.Some? ==> forall j :: 0 <= j < r.value ==> cart[j].itemId != id
  {
    if cart == [] then None
    else if cart[0].itemId == id then Some(0)
    else match FindGrnLine(cart[1..], id)
      case None => None
      case Some(i) => Some(i + 1)
  }

  /** No part is listed on two lines. */
  predicate OneLinePerPart(cart: seq<GrnLine>) {
    forall i, j :: 0 <= i < j < |cart| ==> cart[i].itemId != cart[j].itemId
  }

  /** Every line receives at least one unit. */
  predicate PositiveQuantities(cart: seq<GrnLine>) {
    forall i :: 0 <= i < |cart| ==> cart[i].qty > 0
  }

  function QtyOfPart(id: nat): GrnLine -> int {
    (l: GrnLine) => if l.itemId == id then l.qty else 0
  }

  /** The units of part `id` the list receives, over all its lines. */
  function GrnQty(cart: seq<GrnLine>, id: nat): int {
    Sum(cart, QtyOfPart(id))
  }

  /** `addGrnItem`: with no part selected or a quantity below one nothing
      changes; a part already listed gains the quantity and takes the new
      cost; otherwise a line is appended, naming the part as the catalog
      has it. A part missing from the catalog makes the append throw, which
      leaves the list as it was. */
  function AddGrnItem(cart: seq<GrnLine>, catalog: map<nat, InventoryItem>, itemId: Option<nat>, qty: int, cost: int)
    : (r: Result<seq<GrnLine>>)
    ensures r == Err(NoItemSelected) <==> itemId.None?
    ensures r == Err(NonPositiveQuantity) <==> itemId.Some? && qty <= 0
    ensures r == Err(UnknownItem) <==>
      itemId.Some? && qty > 0 && FindGrnLine(cart, itemId.value).None? && itemId.value !in catalog
    ensures r.Ok? ==>
      var id := itemId.value;
      && (FindGrnLine(cart, id).Some? ==>
            var i := FindGrnLine(cart, id).value;
            && |r.value| == |cart|
            && r.value[i] == cart[i].(qty := cart[i].qty + qty, cost := cost)
            && (forall j :: 0 <= j < |cart| && j != i ==> r.value[j] == cart[j]))
      && (FindGrnLine(cart, id).None? ==>
            && |r.value| == |cart| + 1 && r.value[..|cart|] == cart
            && r.value[|cart|] == GrnLine(id, catalog[id].partName, catalog[id].partNumber, qty, cost))
  {
    match itemId
    case None => Err(NoItemSelected)
    case Some(id) =>
      if qty <= 0 then Err(NonPositiveQuantity)
      else match FindGrnLine(cart, id)
        case Some(i) => Ok(cart[i := cart[i].(qty := cart[i].qty + qty, cost := cost)])
        case None =>
          if id !in catalog then Err(UnknownItem)
          else
            var line := GrnLine(id, catalog[id].partName, catalog[id].partNumber, qty, cost);
            assert (cart + [line])[..|cart|] == cart;
            Ok(cart + [line])
  }

  /** Adding keeps one line per part and keeps every quantity positive. */
  lemma AddGrnItemKeepsShape(cart: seq<GrnLine>, catalog: map<nat, InventoryItem>, itemId: Option<nat>, qty: int, cost: int)
    requires OneLinePerPart(cart) && PositiveQuantities(cart)
    requires AddGrnItem(cart, catalog, itemId, qty, cost).Ok?
    ensures OneLinePerPart(AddGrnItem(cart, catalog, itemId, qty, cost).value)
    ensures PositiveQuantities(AddGrnItem(cart, catalog, itemId, qty, cost).value)
  {
    var r := AddGrnItem(cart, catalog, itemId, qty, cost).value;
    if FindGrnLine(cart, itemId.value).None? {
      forall i, j | 0 <= i < j < |r|
        ensures r[i].itemId != r[j].itemId
      {
        assert r[i] == cart[i];
        if j < |cart| {
          assert r[j] == cart[j];
        }
      }
    }
  }

  /** What the list receives accumulates: the selected part gains exactly
      the quantity entered, every other part keeps its count, and the
      selected part's line carries the cost entered last. */
  lemma AddGrnItemAccumulates(cart: seq<GrnLine>, catalog: map<nat, InventoryItem>, itemId: Option<nat>, qty: int, cost: int, part: nat)
    requires AddGrnItem(cart, catalog, itemId, qty, cost).Ok?
    ensures var r := AddGrnItem(cart, catalog, itemId, qty, cost).value;
      GrnQty(r, part) == GrnQty(cart, part) + (if part == itemId.value then qty else 0)
    ensures var r := AddGrnItem(cart, catalog, itemId, qty, cost).value;
      exists i :: 0 <= i < |r| && r[i].itemId == itemId.value && r[i].cost == cost
  {
    var r := AddGrnItem(cart, catalog, itemId, qty, cost).value;
    var id := itemId.value;
    match FindGrnLine(cart, id)
    case None =>
      SumSnoc(cart, r[|cart|], QtyOfPart(part));
      assert r == cart + [r[|cart|]];
      assert r[|cart|].itemId == id && r[|cart|].cost == cost;
    case Some(i) =>
      SumRemove(cart, i, QtyOfPart(part));
      SumRemove(r, i, QtyOfPart(part));
      assert r[..i] + r[i + 1..] == cart[..i] + cart[i + 1..];
      assert r[i].itemId == id && r[i].cost == cost;
  }

  // ---------------------------------------------------------------------
  // Finalising a note

  /** `grnCart.reduce((sum, item) => sum + item.qty * item.cost, 0)`. */
  function GrnTotal(cart: seq<GrnLine>): (r: int)
    ensures r == Sum(cart, GrnLineAmount)
  {
    ReduceIsSum(cart, GrnLineAmount, 0);
    Reduce(cart, GrnLineAmount, 0)
  }

  /** One line's inventory write: a part still stored gains the quantity
      and takes the line's cost as its buying price; a part no longer
      stored is skipped. */
  function Receive(inv: map<nat, InventoryItem>, l: GrnLine): map<nat, InventoryItem> {
    if l.itemId in inv then
      inv[l.itemId := inv[l.itemId].(stock := inv[l.itemId].stock + l.qty, buyingPrice := Some(l.cost))]
    else inv
  }

  /** The stock loop of `submitGRN`, line by line, each reading the part as
      the previous lines left it. */
  function Restock(inv: map<nat, InventoryItem>, lines: seq<GrnLine>): (r: map<nat, InventoryItem>)
    ensures r.Keys == inv.Keys
    decreases |lines|
  {
    if lines == [] then inv else Restock(Receive(inv, lines[0]), lines[1..])
  }

  /** After restocking, a stored part holds its old stock plus every unit
      the lines receive for it; its buying price is the cost on the last
      line naming it, or unchanged when none does; nothing else about it
      moves. */
  lemma {:induction false} RestockEffect(inv: map<nat, InventoryItem>, lines: seq<GrnLine>, id: nat)
    requires id in inv
    ensures var r := Restock(inv, lines);
      && r[id] == inv[id].(stock := inv[id].stock + GrnQty(lines, id), buyingPrice := r[id].buyingPrice)
      && ((forall j :: 0 <= j < |lines| ==> lines[j].itemId != id) ==> r[id].buyingPrice == inv[id].buyingPrice)
      && (forall i :: 0 <= i < |lines| && lines[i].itemId == id && (forall j :: i < j < |lines| ==> lines[j].itemId != id) ==>
            r[id].buyingPrice == Some(lines[i].cost))
    decreases |lines|
  {
    if lines != [] {
      var inv1 := Receive(inv, lines[0]);
      RestockEffect(inv1, lines[1..], id);
      var r := Restock(inv, lines);
      assert r == Restock(inv1, lines[1..]);
      forall i | 0 <= i < |lines| && lines[i].itemId == id && (forall j :: i < j < |lines| ==> lines[j].itemId != id)
        ensures r[id].buyingPrice == Some(lines[i].cost)
      {
        if i > 0 {
          assert lines[1..][i - 1] == lines[i];
          assert forall j :: i - 1 < j < |lines[1..]| ==> lines[1..][j] == lines[j + 1];
        } else {
          assert forall j :: 0 <= j < |lines[1..]| ==> lines[1..][j] == lines[j + 1];
        }
      }
      if forall j :: 0 <= j < |lines| ==> lines[j].itemId != id {
        assert lines[0].itemId != id;
        assert forall j :: 0 <= j < |lines[1..]| ==> lines[1..][j] == lines[j + 1];
      }
    }
  }

  /** A part no line names is left exactly as stored. */
  lemma {:induction false} RestockUntouched(inv: map<nat, InventoryItem>, lines: seq<GrnLine>, id: nat)
    requires id in inv && forall j :: 0 <= j < |lines| ==> lines[j].itemId != id
    ensures Restock(inv, lines)[id] == inv[id]
    decreases |lines|
  {
    if lines != [] {
      assert lines[0].itemId != id;
      assert forall j :: 0 <= j < |lines[1..]| ==> lines[1..][j] == lines[j + 1];
      RestockUntouched(Receive(inv, lines[0]), lines[1..], id);
    }
  }

  /** `submitGRN`: an empty list and a missing supplier are turned away.
      Otherwise the note is stored under a new key with the list's total
      `Σ qty × cost`, the amount paid as entered and a copy of the lines,
      every listed part that is still stored is restocked, and the list is
      cleared. */
  function SubmitGrn(st: Pos, supplierId: Option<nat>, reference: string, paidAmount: int, now: Clock): (r: Result<Pos>)
    requires st.db.Valid()
    ensures r == Err(EmptyGrn) <==> st.grnCart == []
    ensures r == Err(NoSupplier) <==> st.grnCart != [] && supplierId.None?
    ensures r.Ok? ==>
      var k := st.db.grns.nextId;
      var st' := r.value;
      && st'.db.Valid()
      && st'.db.grns.nextId == k + 1 && k !in st.db.grns.rows
      && st'.db.grns.rows == st.db.grns.rows[k := Grn(now.day, now.time, supplierId.value, Trim(reference),
                                                      Sum(st.grnCart, GrnLineAmount), paidAmount, st.grnCart, st.user)]
      && st'.db.inventory == Restock(st.db.inventory, st.grnCart)
      && (forall id :: id in st.db.inventory ==>
            st'.db.inventory[id].stock == st.db.inventory[id].stock + GrnQty(st.grnCart, id))
      && st'.db == st.db.(grns := st'.db.grns, inventory := st'.db.inventory)
      && st' == st.(db := st'.db, grnCart := [])
  {
    if st.grnCart == [] then Err(EmptyGrn)
    else match supplierId
      case None => Err(NoSupplier)
      case Some(sid) =>
        var note := Grn(now.day, now.time, sid, Trim(reference), GrnTotal(st.grnCart), paidAmount, st.grnCart, st.user);
        var (grns', _) := st.db.grns.Add(note);
        var inv' := Restock(st.db.inventory, st.grnCart);
        assert forall id :: id in st.db.inventory ==> inv'[id].stock == st.db.inventory[id].stock + GrnQty(st.grnCart, id) by {
          forall id | id in st.db.inventory
            ensures inv'[id].stock == st.db.inventory[id].stock + GrnQty(st.grnCart, id)
          {
            RestockEffect(st.db.inventory, st.grnCart, id);
          }
        }
        Ok(st.(db := st.db.(grns := grns', inventory := inv'), grnCart := []))
  }

  // ---------------------------------------------------------------------
  // What a supplier is owed

  function OfSupplier(sid: nat): Grn -> bool {
    (g: Grn) => g.supplierId == sid
  }

  function GrnTotalOf(g: Grn): int { g.total }
  function GrnPaidOf(g: Grn): int { g.paidAmount }

  /** What is still owed on one note; negative when it was overpaid. */
  function Outstanding(g: Grn): int { g.total - g.paidAmount }

  /** The part of a note's balance a payment can settle. */
  function Owed(g: Grn): int { Max(0, Outstanding(g)) }

  /** The keys of the supplier's notes, in key order. */
  function SupplierGrnKeys(grns: Table<Grn>, sid: nat): (ks: seq<nat>)
    requires grns.Valid()
    ensures forall i :: 0 <= i < |ks| ==> ks[i] in grns.rows
    ensures forall k :: k in ks <==> k in grns.rows && grns.rows[k].supplierId == sid
    ensures forall i, j :: 0 <= i < j < |ks| ==> ks[i] < ks[j]
  {
    Where(grns, OfSupplier(sid))
  }

  function SupplierGrns(grns: Table<Grn>, sid: nat): seq<Grn>
    requires grns.Valid()
  {
    Rows(grns, SupplierGrnKeys(grns, sid))
  }

  datatype Account = Account(purchased: int, paid: int, outstanding: int)

  /** The supplier row of the suppliers screen: everything bought, everything
      paid, and the difference, which is what the notes still owe taken
      together (an overpaid note offsets the others). */
  function SupplierAccount(grns: Table<Grn>, sid: nat): (a: Account)
    requires grns.Valid()
    ensures a.purchased == Sum(SupplierGrns(grns, sid), GrnTotalOf)
    ensures a.paid == Sum(SupplierGrns(grns, sid), GrnPaidOf)
    ensures a.outstanding == Sum(SupplierGrns(grns, sid), Outstanding)
  {
    var gs := SupplierGrns(grns, sid);
    ReduceIsSum(gs, GrnTotalOf, 0);
    ReduceIsSum(gs, GrnPaidOf, 0);
    OutstandingIsDifference(gs);
    var purchased := Reduce(gs, GrnTotalOf, 0);
    var paid := Reduce(gs, GrnPaidOf, 0);
    Account(purchased, paid, purchased - paid)
  }

  lemma {:induction false} OutstandingIsDifference(gs: seq<Grn>)
    ensures Sum(gs, GrnTotalOf) - Sum(gs, GrnPaidOf) == Sum(gs, Outstanding)
    decreases |gs|
  {
    if gs != [] {
      OutstandingIsDifference(gs[1..]);
    }
  }

  /** When no note is overpaid, what the screen shows as outstanding is
      exactly what a payment can settle. */
  lemma {:induction false} OutstandingIsOwed(gs: seq<Grn>)
    requires forall i :: 0 <= i < |gs| ==> gs[i].paidAmount <= gs[i].total
    ensures Sum(gs, Outstanding) == Sum(gs, Owed)
    decreases |gs|
  {
    if gs != [] {
      OutstandingIsOwed(gs[1..]);
    }
  }

  // ---------------------------------------------------------------------
  // Paying a supplier

  /** A note as read from the store, with its key. */
  datatype Stored = Stored(key: nat, grn: Grn)

  /** The notes stored under `ks`, with their keys, in that order. */
  function Snapshot(grns: Table<Grn>, ks: seq<nat>): (r: seq<Stored>)
    requires forall i :: 0 <= i < |ks| ==> ks[i] in grns.rows
    ensures |r| == |ks|
    ensures forall i :: 0 <= i < |r| ==> r[i] == Stored(ks[i], grns.rows[ks[i]])
  {
    if ks == [] then [] else [Stored(ks[0], grns.rows[ks[0]])] + Snapshot(grns, ks[1..])
  }

  function Time(n: Stored): int { n.grn.timestamp }

  /** Oldest first, notes with equal timestamps in key order: the order a
      stable sort by timestamp gives notes read in key order. */
  predicate Chronological(s: seq<Stored>) {
    forall i, j :: 0 <= i < j < |s| ==> Before(s[i], s[j])
  }

  predicate KeysIncrease(s: seq<Stored>) {
    forall i, j :: 0 <= i < j < |s| ==> s[i].key < s[j].key
  }

  /** Places `x` before the first note that is not older than it. */
  function InsertByTime(x: Stored, s: seq<Stored>): (r: seq<Stored>)
    ensures |r| == |s| + 1
    ensures multiset(r) == multiset(s) + multiset{x}
  {
    if s == [] || Time(x) <= Time(s[0]) then [x] + s
    else
      assert s == [s[0]] + s[1..];
      [s[0]] + InsertByTime(x, s[1..])
  }

  /** `a` comes before `b` in the chronological order. */
  predicate Before(a: Stored, b: Stored) {
    Time(a) < Time(b) || (Time(a) == Time(b) && a.key < b.key)
  }

  lemma ChronologicalCons(a: Stored, t: seq<Stored>)
    requires Chronological(t) && forall j :: 0 <= j < |t| ==> Before(a, t[j])
    ensures Chronological([a] + t)
  {
    var r := [a] + t;
    forall i, j | 0 <= i < j < |r|
      ensures Before(r[i], r[j])
    {
      if i > 0 {
        assert r[i] == t[i - 1] && r[j] == t[j - 1];
      }
    }
  }

  lemma {:induction false} InsertByTimeChronological(x: Stored, s: seq<Stored>)
    requires Chronological(s)
    requires forall i :: 0 <= i < |s| ==> x.key < s[i].key
    ensures Chronological(InsertByTime(x, s))
    decreases |s|
  {
    if s == [] || Time(x) <= Time(s[0]) {
      ChronologicalCons(x, s);
    } else {
      assert Chronological(s[1..]) by {
        forall i, j | 0 <= i < j < |s[1..]|
          ensures Before(s[1..][i], s[1..][j])
        {
          assert s[1..][i] == s[i + 1] && s[1..][j] == s[j + 1];
        }
      }
      InsertByTimeChronological(x, s[1..]);
      var t := InsertByTime(x, s[1..]);
      forall j | 0 <= j < |t|
        ensures Before(s[0], t[j])
      {
        assert t[j] in multiset(t);
        if t[j] != x {
          assert t[j] in multiset(s[1..]);
          var m :| 0 <= m < |s[1..]| && s[1..][m] == t[j];
          assert s[m + 1] == t[j];
        }
      }
      ChronologicalCons(s[0], t);
    }
  }

  /** The supplier's notes sorted by timestamp, as `sGrns.sort` leaves them. */
  function SortByTime(s: seq<Stored>): (r: seq<Stored>)
    ensures |r| == |s|
    ensures multiset(r) == multiset(s)
  {
    if s == [] then []
    else
      assert s == [s[0]] + s[1..];
      InsertByTime(s[0], SortByTime(s[1..]))
  }

  lemma {:induction false} SortByTimeChronological(s: seq<Stored>)
    requires KeysIncrease(s)
    ensures Chronological(SortByTime(s))
    decreases |s|
  {
    if s != [] {
      SortByTimeChronological(s[1..]);
      var t := SortByTime(s[1..]);
      forall i | 0 <= i < |t|
        ensures s[0].key < t[i].key
      {
        assert t[i] in multiset(s[1..]);
      }
      InsertByTimeChronological(s[0], t);
    }
  }

  /** One note's share of a payment: the note's key, the note as read, and
      the amount put on it. */
  datatype Payment = Payment(key: nat, grn: Grn, amount: int)

  function PaymentAmount(p: Payment): int { p.amount }

  /** The allocation loop of `processSupplierPayment`: each note in turn
      with a positive balance receives `min(balance, what is left)` while
      anything is left. */
  function Allocate(notes: seq<Stored>, remaining: int): (r: seq<Payment>)
    ensures |r| == |notes|
    ensures forall i :: 0 <= i < |r| ==> r[i].key == notes[i].key && r[i].grn == notes[i].grn
    ensures forall i :: 0 <= i < |r| ==> 0 <= r[i].amount <= Owed(notes[i].grn)
    decreases |notes|
  {
    if notes == [] then []
    else
      var out := Outstanding(notes[0].grn);
      var pay := if out > 0 && remaining > 0 then Min(out, remaining) else 0;
      [Payment(notes[0].key, notes[0].grn, pay)] + Allocate(notes[1..], remaining - pay)
  }

  function StoredOwed(n: Stored): int { Owed(n.grn) }

  lemma {:induction false} OwedNonNegative(notes: seq<Stored>)
    ensures Sum(notes, StoredOwed) >= 0
    decreases |notes|
  {
    if notes != [] {
      OwedNonNegative(notes[1..]);
    }
  }

  /** A payment is spent on the notes' balances until either runs out:
      the amounts placed add up to `min(payment, Σ owed)`. */
  lemma {:induction false} AllocateTotal(notes: seq<Stored>, remaining: int)
    requires remaining >= 0
    ensures Sum(Allocate(notes, remaining), PaymentAmount) == Min(remaining, Sum(notes, StoredOwed))
    decreases |notes|
  {
    if notes != [] {
      var out := Outstanding(notes[0].grn);
      var pay := if out > 0 && remaining > 0 then Min(out, remaining) else 0;
      AllocateTotal(notes[1..], remaining - pay);
      OwedNonNegative(notes[1..]);
      assert Allocate(notes, remaining)[1..] == Allocate(notes[1..], remaining - pay);
    }
  }

  predicate NothingPaid(ps: seq<Payment>) {
    forall i :: 0 <= i < |ps| ==> ps[i].amount == 0
  }

  /** A note receives money only when every note before it has been paid
      off in full. */
  predicate OldestFirst(ps: seq<Payment>) {
    forall i, j :: 0 <= i < j < |ps| && ps[j].amount > 0 ==> ps[i].amount == Owed(ps[i].grn)
  }

  /** Once nothing is left, no note receives anything. */
  lemma {:induction false} AllocateExhausted(notes: seq<Stored>, remaining: int)
    requires remaining <= 0
    ensures NothingPaid(Allocate(notes, remaining))
    decreases |notes|
  {
    if notes != [] {
      AllocateExhausted(notes[1..], remaining);
      assert Allocate(notes, remaining)[1..] == Allocate(notes[1..], remaining);
    }
  }

  /** Oldest first, one note at a time: a note left partly unpaid ends
      the payments. */
  predicate PaysInTurn(ps: seq<Payment>)
    decreases |ps|
  {
    ps != [] ==>
      && (ps[0].amount != Owed(ps[0].grn) ==> NothingPaid(ps[1..]))
      && PaysInTurn(ps[1..])
  }

  lemma {:induction false} PaysInTurnOldestFirst(ps: seq<Payment>)
    requires PaysInTurn(ps)
    ensures OldestFirst(ps)
    decreases |ps|
  {
    if ps != [] {
      PaysInTurnOldestFirst(ps[1..]);
      forall i, j | 0 <= i < j < |ps| && ps[j].amount > 0
        ensures ps[i].amount == Owed(ps[i].grn)
      {
        assert ps[j] == ps[1..][j - 1];
        if i > 0 {
          assert ps[i] == ps[1..][i - 1];
        }
      }
    }
  }

  lemma {:induction false} AllocatePaysInTurn(notes: seq<Stored>, remaining: int)
    ensures PaysInTurn(Allocate(notes, remaining))
    decreases |notes|
  {
    if notes != [] {
      var r := Allocate(notes, remaining);
      var out := Outstanding(notes[0].grn);
      var pay := if out > 0 && remaining > 0 then Min(out, remaining) else 0;
      assert r[1..] == Allocate(notes[1..], remaining - pay);
      AllocatePaysInTurn(notes[1..], remaining - pay);
      if pay != Owed(notes[0].grn) {
        AllocateExhausted(notes[1..], remaining - pay);
      }
    }
  }

  /** The allocation pays the notes oldest first in the order given. */
  lemma AllocateOldestFirst(notes: seq<Stored>, remaining: int)
    ensures OldestFirst(Allocate(notes, remaining))
  {
    AllocatePaysInTurn(notes, remaining);
    PaysInTurnOldestFirst(Allocate(notes, remaining));
  }

  /** Writes each positive share: the note's amount paid grows by it. */
  function ApplyPayments(grns: Table<Grn>, ps: seq<Payment>): (r: Table<Grn>)
    ensures r.nextId == grns.nextId && r.rows.Keys == grns.rows.Keys
    decreases |ps|
  {
    if ps == [] then grns
    else
      var p := ps[0];
      var grns' := if p.amount > 0 then grns.Put(p.key, p.grn.(paidAmount := p.grn.paidAmount + p.amount)) else grns;
      ApplyPayments(grns', ps[1..])
  }

  /** The shares `processSupplierPayment` places on a supplier's notes. */
  function NoteOf(p: Payment): Stored { Stored(p.key, p.grn) }

  /** The shares `processSupplierPayment` places: one per note of the
      supplier, read as stored, oldest first, none above the note's
      balance. */
  function PaymentPlan(grns: Table<Grn>, sid: nat, amount: int): (plan: seq<Payment>)
    requires grns.Valid()
    ensures forall i :: 0 <= i < |plan| ==> StoredNoteOf(grns, sid, NoteOf(plan[i])) && 0 <= plan[i].amount <= Owed(plan[i].grn)
    ensures forall k :: k in grns.rows && grns.rows[k].supplierId == sid ==> exists i :: 0 <= i < |plan| && plan[i].key == k
    ensures forall i, j :: 0 <= i < j < |plan| ==> plan[i].key != plan[j].key
    ensures forall i, j :: 0 <= i < j < |plan| ==> Before(NoteOf(plan[i]), NoteOf(plan[j]))
  {
    var notes := SortByTime(Snapshot(grns, SupplierGrnKeys(grns, sid)));
    SortedSupplierNotes(grns, sid);
    AllocatedNotes(grns, sid, notes, amount);
    Allocate(notes, amount)
  }

  lemma AllocatedNotes(grns: Table<Grn>, sid: nat, notes: seq<Stored>, amount: int)
    requires forall i :: 0 <= i < |notes| ==> StoredNoteOf(grns, sid, notes[i])
    requires forall k :: k in grns.rows && grns.rows[k].supplierId == sid ==> exists i :: 0 <= i < |notes| && notes[i].key == k
    requires forall i, j :: 0 <= i < j < |notes| ==> notes[i].key != notes[j].key
    requires Chronological(notes)
    ensures var plan := Allocate(notes, amount);
      && (forall i :: 0 <= i < |plan| ==> StoredNoteOf(grns, sid, NoteOf(plan[i])) && 0 <= plan[i].amount <= Owed(plan[i].grn))
      && (forall k :: k in grns.rows && grns.rows[k].supplierId == sid ==> exists i :: 0 <= i < |plan| && plan[i].key == k)
      && (forall i, j :: 0 <= i < j < |plan| ==> plan[i].key != plan[j].key)
      && (forall i, j :: 0 <= i < j < |plan| ==> Before(NoteOf(plan[i]), NoteOf(plan[j])))
  {
    var plan := Allocate(notes, amount);
    assert forall i :: 0 <= i < |plan| ==> NoteOf(plan[i]) == notes[i];
  }

  lemma {:induction false} SumInsertByTime(x: Stored, s: seq<Stored>, f: Stored -> int)
    ensures Sum(InsertByTime(x, s), f) == f(x) + Sum(s, f)
    decreases |s|
  {
    if s != [] && Time(x) > Time(s[0]) {
      SumInsertByTime(x, s[1..], f);
      assert InsertByTime(x, s)[1..] == InsertByTime(x, s[1..]);
    }
  }

  /** Sorting only reorders, so it keeps every sum. */
  lemma {:induction false} SumSortByTime(s: seq<Stored>, f: Stored -> int)
    ensures Sum(SortByTime(s), f) == Sum(s, f)
    decreases |s|
  {
    if s != [] {
      SumSortByTime(s[1..], f);
      SumInsertByTime(s[0], SortByTime(s[1..]), f);
    }
  }

  lemma {:induction false} SnapshotOwed(grns: Table<Grn>, ks: seq<nat>)
    requires forall i :: 0 <= i < |ks| ==> ks[i] in grns.rows
    ensures Sum(Snapshot(grns, ks), StoredOwed) == Sum(Rows(grns, ks), Owed)
    decreases |ks|
  {
    if ks != [] {
      SnapshotOwed(grns, ks[1..]);
      assert Snapshot(grns, ks)[1..] == Snapshot(grns, ks[1..]);
      assert Rows(grns, ks)[1..] == Rows(grns, ks[1..]);
    }
  }

  /** A note of the supplier exactly as stored. */
  predicate StoredNoteOf(grns: Table<Grn>, sid: nat, n: Stored) {
    n.key in grns.rows && n.grn == grns.rows[n.key] && n.grn.supplierId == sid
  }

  lemma ReorderedNotesStored(grns: Table<Grn>, sid: nat, snap: seq<Stored>, notes: seq<Stored>)
    requires multiset(notes) == multiset(snap)
    requires forall m :: 0 <= m < |snap| ==> StoredNoteOf(grns, sid, snap[m])
    ensures forall i :: 0 <= i < |notes| ==> StoredNoteOf(grns, sid, notes[i])
  {
    forall i | 0 <= i < |notes|
      ensures StoredNoteOf(grns, sid, notes[i])
    {
      assert notes[i] in multiset(snap);
    }
  }

  lemma ReorderedKeysKept(snap: seq<Stored>, notes: seq<Stored>, k: nat)
    requires multiset(notes) == multiset(snap)
    requires exists m :: 0 <= m < |snap| && snap[m].key == k
    ensures exists i :: 0 <= i < |notes| && notes[i].key == k
  {
    var m :| 0 <= m < |snap| && snap[m].key == k;
    assert snap[m] in multiset(notes);
    var i :| 0 <= i < |notes| && notes[i] == snap[m];
  }

  lemma ReorderedKeysDistinct(snap: seq<Stored>, notes: seq<Stored>)
    requires multiset(notes) == multiset(snap)
    requires KeysIncrease(snap) && Chronological(notes)
    ensures forall i, j :: 0 <= i < j < |notes| ==> notes[i].key != notes[j].key
  {
    forall i, j | 0 <= i < j < |notes|
      ensures notes[i].key != notes[j].key
    {
      assert Before(notes[i], notes[j]);
      assert notes[i] in multiset(snap) && notes[j] in multiset(snap);
      var a :| 0 <= a < |snap| && snap[a] == notes[i];
      var b :| 0 <= b < |snap| && snap[b] == notes[j];
    }
  }

  lemma SortedNotes(grns: Table<Grn>, sid: nat, ks: seq<nat>)
    requires forall i :: 0 <= i < |ks| ==> ks[i] in grns.rows
    requires forall k :: k in ks <==> k in grns.rows && grns.rows[k].supplierId == sid
    requires forall i, j :: 0 <= i < j < |ks| ==> ks[i] < ks[j]
    ensures var notes := SortByTime(Snapshot(grns, ks));
      && (forall i :: 0 <= i < |notes| ==> StoredNoteOf(grns, sid, notes[i]))
      && (forall k :: k in grns.rows && grns.rows[k].supplierId == sid ==> exists i :: 0 <= i < |notes| && notes[i].key == k)
      && (forall i, j :: 0 <= i < j < |notes| ==> notes[i].key != notes[j].key)
      && Chronological(notes)
  {
    var snap := Snapshot(grns, ks);
    var notes := SortByTime(snap);
    SnapshotFacts(grns, sid, ks, snap);
    SortByTimeChronological(snap);
    ReorderedNotesStored(grns, sid, snap, notes);
    ReorderedKeysDistinct(snap, notes);
    forall k | k in grns.rows && grns.rows[k].supplierId == sid
      ensures exists i :: 0 <= i < |notes| && notes[i].key == k
    {
      ReorderedKeysKept(snap, notes, k);
    }
  }

  lemma SnapshotFacts(grns: Table<Grn>, sid: nat, ks: seq<nat>, snap: seq<Stored>)
    requires forall k :: k in ks <==> k in grns.rows && grns.rows[k].supplierId == sid
    requires forall i, j :: 0 <= i < j < |ks| ==> ks[i] < ks[j]
    requires |snap| == |ks|
    requires forall i :: 0 <= i < |ks| ==> ks[i] in grns.rows && snap[i] == Stored(ks[i], grns.rows[ks[i]])
    ensures KeysIncrease(snap)
    ensures forall m :: 0 <= m < |snap| ==> StoredNoteOf(grns, sid, snap[m])
    ensures forall k :: k in grns.rows && grns.rows[k].supplierId == sid ==> exists m :: 0 <= m < |snap| && snap[m].key == k
  {
    forall k | k in grns.rows && grns.rows[k].supplierId == sid
      ensures exists m :: 0 <= m < |snap| && snap[m].key == k
    {
      var m :| 0 <= m < |ks| && ks[m] == k;
      assert snap[m].key == k;
    }
  }

  /** The notes of the supplier, sorted: each is a note of the supplier as
      stored, every note of the supplier is there, none twice, oldest
      first. */
  lemma SortedSupplierNotes(grns: Table<Grn>, sid: nat)
    requires grns.Valid()
    ensures var notes := SortByTime(Snapshot(grns, SupplierGrnKeys(grns, sid)));
      && (forall i :: 0 <= i < |notes| ==> StoredNoteOf(grns, sid, notes[i]))
      && (forall k :: k in grns.rows && grns.rows[k].supplierId == sid ==> exists i :: 0 <= i < |notes| && notes[i].key == k)
      && (forall i, j :: 0 <= i < j < |notes| ==> notes[i].key != notes[j].key)
      && Chronological(notes)
  {
    SortedNotes(grns, sid, SupplierGrnKeys(grns, sid));
  }

  /** The plan spends `min(payment, Σ owed)` over the supplier's notes, and
      pays them oldest first. */
  lemma PaymentPlanAllocates(grns: Table<Grn>, sid: nat, amount: int)
    requires grns.Valid() && amount >= 0
    ensures Sum(PaymentPlan(grns, sid, amount), PaymentAmount) == Min(amount, Sum(SupplierGrns(grns, sid), Owed))
    ensures OldestFirst(PaymentPlan(grns, sid, amount))
  {
    var ks := SupplierGrnKeys(grns, sid);
    var snap := Snapshot(grns, ks);
    AllocateTotal(SortByTime(snap), amount);
    SumSortByTime(snap, StoredOwed);
    SnapshotOwed(grns, ks);
    AllocateOldestFirst(SortByTime(snap), amount);
  }

  /** The shares of a plan read from the store, on distinct notes. */
  predicate FreshShares(grns: Table<Grn>, ps: seq<Payment>) {
    && (forall i :: 0 <= i < |ps| ==> ps[i].key in grns.rows && ps[i].grn == grns.rows[ps[i].key] && ps[i].amount >= 0)
    && (forall i, j :: 0 <= i < j < |ps| ==> ps[i].key != ps[j].key)
  }

  /** Each share lands on its own note: the note's amount paid grows by the
      share and nothing else about it changes; notes without a share are
      left alone. */
  lemma {:induction false} ApplyPaymentsEffect(grns: Table<Grn>, ps: seq<Payment>, k: nat)
    requires FreshShares(grns, ps) && k in grns.rows
    ensures (forall i :: 0 <= i < |ps| ==> ps[i].key != k) ==> ApplyPayments(grns, ps).rows[k] == grns.rows[k]
    ensures forall i :: 0 <= i < |ps| && ps[i].key == k ==>
      ApplyPayments(grns, ps).rows[k] == grns.rows[k].(paidAmount := grns.rows[k].paidAmount + ps[i].amount)
    decreases |ps|
  {
    if ps != [] {
      var p := ps[0];
      var grns' := if p.amount > 0 then grns.Put(p.key, p.grn.(paidAmount := p.grn.paidAmount + p.amount)) else grns;
      assert ApplyPayments(grns, ps) == ApplyPayments(grns', ps[1..]);
      assert FreshShares(grns', ps[1..]) by {
        forall i | 0 <= i < |ps[1..]|
          ensures ps[1..][i].key in grns'.rows && ps[1..][i].grn == grns'.rows[ps[1..][i].key] && ps[1..][i].amount >= 0
        {
          assert ps[1..][i] == ps[i + 1];
        }
        forall i, j | 0 <= i < j < |ps[1..]|
          ensures ps[1..][i].key != ps[1..][j].key
        {
          assert ps[1..][i] == ps[i + 1] && ps[1..][j] == ps[j + 1];
        }
      }
      ApplyPaymentsEffect(grns', ps[1..], k);
      forall i | 0 <= i < |ps| && ps[i].key == k
        ensures ApplyPayments(grns, ps).rows[k] == grns.rows[k].(paidAmount := grns.rows[k].paidAmount + ps[i].amount)
      {
        if i == 0 {
          assert grns.rows[k].(paidAmount := grns.rows[k].paidAmount + 0) == grns.rows[k];
          forall j | 0 <= j < |ps[1..]|
            ensures ps[1..][j].key != k
          {
            assert ps[1..][j] == ps[j + 1];
          }
        } else {
          assert ps[1..][i - 1] == ps[i];
          assert p.key != k;
        }
      }
      if forall i :: 0 <= i < |ps| ==> ps[i].key != k {
        forall j | 0 <= j < |ps[1..]|
          ensures ps[1..][j].key != k
        {
          assert ps[1..][j] == ps[j + 1];
        }
      }
    }
  }

  /** A payment can only raise a note's amount paid, and never past the
      note's total: no note is overpaid by it and no other field moves. */
  predicate PaysDown(before: Table<Grn>, after: Table<Grn>) {
    && after.nextId == before.nextId && after.rows.Keys == before.rows.Keys
    && forall k :: k in before.rows ==>
         && after.rows[k] == before.rows[k].(paidAmount := after.rows[k].paidAmount)
         && before.rows[k].paidAmount <= after.rows[k].paidAmount
         && (after.rows[k].paidAmount > before.rows[k].paidAmount ==> after.rows[k].paidAmount <= before.rows[k].total)
  }

  /** `processSupplierPayment`: a payment of zero or less is turned away.
      Otherwise the supplier's notes are read, sorted oldest first, and each
      note with a balance takes `min(balance, what is left)` while anything
      is left. Each note of the supplier gets exactly its share of the plan,
      and no other note changes. */
  function ProcessSupplierPayment(grns: Table<Grn>, sid: nat, amount: int): (r: Result<Table<Grn>>)
    requires grns.Valid()
    ensures amount <= 0 <==> r.Err?
    ensures r.Err? ==> r.error == InvalidAmount
    ensures r.Ok? ==> r.value.Valid() && PaysDown(grns, r.value)
    ensures r.Ok? ==> forall k :: k in grns.rows && grns.rows[k].supplierId != sid ==> r.value.rows[k] == grns.rows[k]
    ensures r.Ok? ==>
      var plan := PaymentPlan(grns, sid, amount);
      forall i :: 0 <= i < |plan| ==>
        r.value.rows[plan[i].key].paidAmount == grns.rows[plan[i].key].paidAmount + plan[i].amount
  {
    if amount <= 0 then Err(InvalidAmount)
    else
      PlanApplied(grns, sid, amount);
      Ok(ApplyPayments(grns, PaymentPlan(grns, sid, amount)))
  }

  /** Applying shares that never exceed their note's balance pays notes
      down without overpaying them, and touches only the notes shared. */
  lemma SharesApplied(grns: Table<Grn>, sid: nat, ps: seq<Payment>)
    requires grns.Valid() && FreshShares(grns, ps)
    requires forall i :: 0 <= i < |ps| ==> ps[i].grn.supplierId == sid && ps[i].amount <= Owed(ps[i].grn)
    ensures var r := ApplyPayments(grns, ps);
      && r.Valid() && PaysDown(grns, r)
      && (forall k :: k in grns.rows && grns.rows[k].supplierId != sid ==> r.rows[k] == grns.rows[k])
      && (forall i :: 0 <= i < |ps| ==> r.rows[ps[i].key].paidAmount == grns.rows[ps[i].key].paidAmount + ps[i].amount)
  {
    var r := ApplyPayments(grns, ps);
    forall k | k in grns.rows
      ensures && r.rows[k] == grns.rows[k].(paidAmount := r.rows[k].paidAmount)
              && grns.rows[k].paidAmount <= r.rows[k].paidAmount
              && (r.rows[k].paidAmount > grns.rows[k].paidAmount ==> r.rows[k].paidAmount <= grns.rows[k].total)
              && (grns.rows[k].supplierId != sid ==> r.rows[k] == grns.rows[k])
    {
      ApplyPaymentsEffect(grns, ps, k);
    }
    forall i | 0 <= i < |ps|
      ensures r.rows[ps[i].key].paidAmount == grns.rows[ps[i].key].paidAmount + ps[i].amount
    {
      ApplyPaymentsEffect(grns, ps, ps[i].key);
    }
  }

  lemma PlanApplied(grns: Table<Grn>, sid: nat, amount: int)
    requires grns.Valid()
    ensures var r := ApplyPayments(grns, PaymentPlan(grns, sid, amount));
      && r.Valid() && PaysDown(grns, r)
      && (forall k :: k in grns.rows && grns.rows[k].supplierId != sid ==> r.rows[k] == grns.rows[k])
    ensures var plan := PaymentPlan(grns, sid, amount);
      var r := ApplyPayments(grns, plan);
      forall i :: 0 <= i < |plan| ==>
        r.rows[plan[i].key].paidAmount == grns.rows[plan[i].key].paidAmount + plan[i].amount
  {
    var plan := PaymentPlan(grns, sid, amount);
    assert FreshShares(grns, plan);
    SharesApplied(grns, sid, plan);
  }

  /** How much more a note shows as paid in `after` than when it was read. */
  function PaidIncrease(after: Table<Grn>): Stored -> int {
    (n: Stored) => if n.key in after.rows then after.rows[n.key].paidAmount - n.grn.paidAmount else 0
  }

  lemma {:induction false} SnapshotIncrease(before: Table<Grn>, after: Table<Grn>, ks: seq<nat>)
    requires forall i :: 0 <= i < |ks| ==> ks[i] in before.rows && ks[i] in after.rows
    ensures Sum(Snapshot(before, ks), PaidIncrease(after)) == Sum(Rows(after, ks), GrnPaidOf) - Sum(Rows(before, ks), GrnPaidOf)
    decreases |ks|
  {
    if ks != [] {
      SnapshotIncrease(before, after, ks[1..]);
      assert Snapshot(before, ks)[1..] == Snapshot(before, ks[1..]);
      assert Rows(before, ks)[1..] == Rows(before, ks[1..]);
      assert Rows(after, ks)[1..] == Rows(after, ks[1..]);
    }
  }

  /** After a payment of `amount > 0`, the supplier's row shows the same
      purchases, `min(amount, Σ owed)` more paid, and that much less
      outstanding: the money the screen reports as paid is the money the
      notes received. */
  lemma PaymentMovesAccount(grns: Table<Grn>, sid: nat, amount: int)
    requires grns.Valid() && amount > 0
    ensures ProcessSupplierPayment(grns, sid, amount).Ok?
    ensures var before := SupplierAccount(grns, sid);
      var after := SupplierAccount(ProcessSupplierPayment(grns, sid, amount).value, sid);
      var spent := Min(amount, Sum(SupplierGrns(grns, sid), Owed));
      && after.purchased == before.purchased
      && after.paid == before.paid + spent
      && after.outstanding == before.outstanding - spent
  {
    var r := ProcessSupplierPayment(grns, sid, amount).value;
    var ks := SupplierGrnKeys(grns, sid);
    var spent := Min(amount, Sum(SupplierGrns(grns, sid), Owed));
    PlanApplied(grns, sid, amount);
    assert PaysDown(grns, r);
    assert SupplierGrnKeys(r, sid) == ks by {
      WhereFromSame(grns, r, OfSupplier(sid), 0);
    }
    assert Sum(Rows(r, ks), GrnTotalOf) == Sum(Rows(grns, ks), GrnTotalOf) by {
      SumPointwise(Rows(r, ks), GrnTotalOf, Rows(grns, ks), GrnTotalOf);
    }
    assert Sum(Rows(r, ks), GrnPaidOf) == Sum(Rows(grns, ks), GrnPaidOf) + spent by {
      PaidRisesBySpent(grns, sid, amount, r);
    }
    OutstandingIsDifference(Rows(r, ks));
    OutstandingIsDifference(Rows(grns, ks));
  }

  lemma SharesAreIncreases(grns: Table<Grn>, r: Table<Grn>, notes: seq<Stored>, plan: seq<Payment>)
    requires |plan| == |notes|
    requires forall i :: 0 <= i < |plan| ==>
      && notes[i].key == plan[i].key && plan[i].key in grns.rows && plan[i].key in r.rows
      && notes[i].grn == grns.rows[plan[i].key]
      && r.rows[plan[i].key].paidAmount == grns.rows[plan[i].key].paidAmount + plan[i].amount
    ensures Sum(notes, PaidIncrease(r)) == Sum(plan, PaymentAmount)
  {
    forall i | 0 <= i < |plan|
      ensures PaidIncrease(r)(notes[i]) == PaymentAmount(plan[i])
    {
    }
    SumPointwise(notes, PaidIncrease(r), plan, PaymentAmount);
  }

  lemma PaidRisesBySpent(grns: Table<Grn>, sid: nat, amount: int, r: Table<Grn>)
    requires grns.Valid() && amount > 0
    requires r == ApplyPayments(grns, PaymentPlan(grns, sid, amount))
    ensures var ks := SupplierGrnKeys(grns, sid);
      && (forall i :: 0 <= i < |ks| ==> ks[i] in r.rows)
      && Sum(Rows(r, ks), GrnPaidOf) == Sum(Rows(grns, ks), GrnPaidOf) + Min(amount, Sum(SupplierGrns(grns, sid), Owed))
  {
    var ks := SupplierGrnKeys(grns, sid);
    var snap := Snapshot(grns, ks);
    var notes := SortByTime(snap);
    var plan := PaymentPlan(grns, sid, amount);
    PlanApplied(grns, sid, amount);
    assert Sum(notes, PaidIncrease(r)) == Sum(plan, PaymentAmount) by {
      assert plan == Allocate(notes, amount);
      SharesAreIncreases(grns, r, notes, plan);
    }
    assert Sum(notes, PaidIncrease(r)) == Sum(Rows(r, ks), GrnPaidOf) - Sum(Rows(grns, ks), GrnPaidOf) by {
      SumSortByTime(snap, PaidIncrease(r));
      SnapshotIncrease(grns, r, ks);
    }
    PaymentPlanAllocates(grns, sid, amount);
  }

  /** Paying what the suppliers screen shows as outstanding (the amount the
      payment dialog is filled in with) clears the supplier's account when
      no note was overpaid. */
  lemma PayingOutstandingClears(grns: Table<Grn>, sid: nat)
    requires grns.Valid()
    requires forall k :: k in grns.rows && grns.rows[k].supplierId == sid ==> grns.rows[k].paidAmount <= grns.rows[k].total
    ensures var amount := SupplierAccount(grns, sid).outstanding;
      amount > 0 ==>
        && ProcessSupplierPayment(grns, sid, amount).Ok?
        && SupplierAccount(ProcessSupplierPayment(grns, sid, amount).value, sid).outstanding == 0
  {
    var amount := SupplierAccount(grns, sid).outstanding;
    if amount > 0 {
      var gs := SupplierGrns(grns, sid);
      assert forall i :: 0 <= i < |gs| ==> gs[i].paidAmount <= gs[i].total;
      OutstandingIsOwed(gs);
      PaymentMovesAccount(grns, sid, amount);
    }
  }
}

=== FILE: records.dfy ===
/** The records the point-of-sale core reads and writes, and the store that
    holds them. Every collection with an auto-increment key is a `Table`
    whose next key only grows, like the IndexedDB key generator behind it;
    customers are keyed by their phone, which the schema declares unique. */
module Records {
  import opened Common

  // ---------------------------------------------------------------------
  // Auto-increment tables

  datatype Table<T> = Table(rows: map<nat, T>, nextId: nat)
  {
    /** The key generator is ahead of every stored key. */
    predicate Valid() {
      forall k :: k in rows ==> k < nextId
    }

    /** `table.add(v)`: stores `v` under a new key and returns that key. */
    function Add(v: T): (r: (Table<T>, nat))
      requires Valid()
      ensures r.0.Valid()
      ensures r.1 !in rows && r.0.rows == rows[r.1 := v]
      ensures r.1 == nextId
    {
      (Table(rows[nextId := v], nextId + 1), nextId)
    }

    /** `table.update(k, …)`: replaces a stored row and ignores a missing key. */
    function Put(k: nat, v: T): (r: Table<T>)
      ensures r.nextId == nextId && r.rows.Keys == rows.Keys
      ensures k in rows ==> r.rows == rows[k := v]
      ensures k !in rows ==> r == this
    {
      if k in rows then Table(rows[k := v], nextId) else this
    }
  }

  function WhereFrom<T>(t: Table<T>, p: T -> bool, from: nat): (ks: seq<nat>)
    ensures forall i :: 0 <= i < |ks| ==> from <= ks[i] < t.nextId && ks[i] in t.rows && p(t.rows[ks[i]])
    ensures forall k :: from <= k < t.nextId && k in t.rows && p(t.rows[k]) ==> k in ks
    ensures forall i, j :: 0 <= i < j < |ks| ==> ks[i] < ks[j]
    decreases t.nextId - from
  {
    if from >= t.nextId then []
    else if from in t.rows && p(t.rows[from]) then [from] + WhereFrom(t, p, from + 1)
    else WhereFrom(t, p, from + 1)
  }

  /** `table.where(…).toArray()` / `filter`: the keys of the rows that satisfy
      `p`, in ascending key order (the order IndexedDB returns them in). */
  function Where<T>(t: Table<T>, p: T -> bool): (ks: seq<nat>)
    requires t.Valid()
    ensures forall i :: 0 <= i < |ks| ==> ks[i] in t.rows && p(t.rows[ks[i]])
    ensures forall k :: k in t.rows && p(t.rows[k]) ==> k in ks
    ensures forall i, j :: 0 <= i < j < |ks| ==> ks[i] < ks[j]
  {
    WhereFrom(t, p, 0)
  }

  /** A query reads only the rows and what `p` says of them. */
  lemma {:induction false} WhereFromSame<T>(t1: Table<T>, t2: Table<T>, p: T -> bool, from: nat)
    requires t1.nextId == t2.nextId && t1.rows.Keys == t2.rows.Keys
    requires forall k :: k in t1.rows ==> p(t1.rows[k]) == p(t2.rows[k])
    ensures WhereFrom(t1, p, from) == WhereFrom(t2, p, from)
    decreases t1.nextId - from
  {
    if from < t1.nextId {
      WhereFromSame(t1, t2, p, from + 1);
      assert (from in t1.rows && p(t1.rows[from])) == (from in t2.rows && p(t2.rows[from]));
    }
  }

  /** The rows stored under `ks`, in that order. */
  function Rows<T>(t: Table<T>, ks: seq<nat>): (r: seq<T>)
    requires forall i :: 0 <= i < |ks| ==> ks[i] in t.rows
    ensures |r| == |ks|
    ensures forall i :: 0 <= i < |ks| ==> r[i] == t.rows[ks[i]]
  {
    if ks == [] then [] else [t.rows[ks[0]]] + Rows(t, ks[1..])
  }

  // ---------------------------------------------------------------------
  // Entities

  datatype PaymentMethod = Cash | Credit

  datatype Status = Open | Closed

  /** A business day of one user. Sessions written by older versions of the
      application may lack a float or a counter, hence the options. */
  datatype Session = Session(
    userId: nat,
    startTime: Option<int>,
    endTime: Option<int>,
    floatCash: Option<int>,
    cashInHand: Option<int>,
    status: Status,
    invoiceCounter: Option<int>)

  /** The in-memory copy of the user's open session, with its key. */
  datatype ActiveSession = Active(id: nat, session: Session)

  /** A cart line: a part from stock, a service (catalogued or ad hoc), or
      the settlement of a vehicle's old credit sales. */
  datatype CartLine =
    | Item(itemId: nat, partName: string, price: int, buyingPrice: Option<int>, qty: int)
    | Service(partName: string, price: int, qty: int)
    | CreditPayment(partName: string, price: int, originalSales: seq<nat>)
  {
    /** Every line but the credit settlement carries its quantity; the
        settlement line is always a single unit. */
    function Qty(): int {
      match this
      case Item(_, _, _, _, q) => q
      case Service(_, _, q) => q
      case CreditPayment(_, _, _) => 1
    }
  }

  /** `item.price * item.qty`. */
  function LineAmount(l: CartLine): int { l.price * l.Qty() }

  /** `Number(item.buyingPrice) || Number(item.price) || 0`: a missing or zero
      buying price falls back to the selling price. */
  function UnitCost(l: CartLine): int
    requires l.Item?
  {
    match l.buyingPrice
    case Some(b) => if b != 0 then b else l.price
    case None => l.price
  }

  /** The cost a line adds to the sale: only stock items are costed. */
  function LineCost(l: CartLine): int {
    if l.Item? then UnitCost(l) * l.qty else 0
  }

  datatype Sale = Sale(
    invoiceNo: int,
    vehicleNo: string,
    customerName: string,
    customerPhone: string,
    mileage: int,
    items: seq<CartLine>,
    subtotal: int,
    discount: int,
    total: int,
    cashReceived: int,
    balance: int,
    profit: int,
    paymentMethod: PaymentMethod,
    date: int,
    timestamp: int,
    isPaid: Option<bool>,
    sessionId: Option<nat>,
    userId: Option<nat>)

  function SaleTotal(s: Sale): int { s.total }
  function SaleProfit(s: Sale): int { s.profit }
  predicate IsCashSale(s: Sale) { s.paymentMethod == Cash }
  predicate IsCreditSale(s: Sale) { s.paymentMethod == Credit }

  /** The test the credit views and the settlement line share: a credit sale
      whose `isPaid` is `false` or was never written. */
  predicate IsUnpaidCredit(s: Sale) {
    s.paymentMethod == Credit && (s.isPaid == Some(false) || s.isPaid == None)
  }

  predicate IsPaid(s: Sale) { s.isPaid == Some(true) }

  datatype InventoryItem = InventoryItem(
    partName: string,
    partNumber: string,
    price: int,
    buyingPrice: Option<int>,
    stock: int)

  datatype ServiceDef = ServiceDef(serviceName: string, cost: int)

  datatype Customer = Customer(name: string, vehicleNo: string, points: int)

  datatype Expense = Expense(date: int, amount: int)

  function ExpenseAmount(e: Expense): int { e.amount }

  datatype GrnLine = GrnLine(itemId: nat, partName: string, partNumber: string, qty: int, cost: int)

  function GrnLineAmount(l: GrnLine): int { l.qty * l.cost }

  datatype Grn = Grn(
    date: int,
    timestamp: int,
    supplierId: nat,
    reference: string,
    total: int,
    paidAmount: int,
    items: seq<GrnLine>,
    userId: Option<nat>)

  /** The database. */
  datatype Db = Db(
    inventory: map<nat, InventoryItem>,
    sales: Table<Sale>,
    sessions: Table<Session>,
    customers: map<string, Customer>,
    grns: Table<Grn>,
    expenses: seq<Expense>)
  {
    predicate Valid() {
      sales.Valid() && sessions.Valid() && grns.Valid()
    }
  }

  /** What `generateDayEndReport` leaves for `processDayEnd`. */
  datatype PendingDayEnd = PendingDayEnd(
    session: ActiveSession,
    sales: seq<Sale>,
    float: int,
    cashSales: int,
    expenses: int,
    expected: int)

  /** The application's state: the database plus the module-level variables
      of the page (user, current session, cart, points being redeemed, the
      pending day-end, the goods-received cart). */
  datatype Pos = Pos(
    db: Db,
    user: Option<nat>,
    current: Option<ActiveSession>,
    cart: seq<CartLine>,
    redeemedPoints: int,
    pending: Option<PendingDayEnd>,
    grnCart: seq<GrnLine>)

  /** A calendar day and a point in time, both opaque numbers. */
  datatype Clock = Clock(day: int, time: int)
}

=== FILE: reminders.dfy ===
/** Customer contact helpers: the phone number as sent to WhatsApp, and the
    service reminder computed from each vehicle's latest sale. */
module Reminders {
  import opened Common
  import opened Records

  // ---------------------------------------------------------------------
  // Phone numbers

  predicate IsDigit(c: char) { '0' <= c <= '9' }

  predicate AllDigits(s: string) {
    forall i :: 0 <= i < |s| ==> IsDigit(s[i])
  }

  /** `phone.replace(/\D/g, '')`. */
  function DigitsOf(phone: string): (r: string)
    ensures AllDigits(r) && |r| <= |phone|
  {
    Filter(phone, IsDigit)
  }

  /** The digits of a number already written with only digits are the
      number itself. */
  lemma {:induction false} DigitsOfDigits(s: string)
    requires AllDigits(s)
    ensures DigitsOf(s) == s
    decreases |s|
  {
    if s != [] {
      assert IsDigit(s[0]);
      assert AllDigits(s[1..]) by {
        forall i | 0 <= i < |s[1..]|
          ensures IsDigit(s[1..][i])
        {
          assert s[1..][i] == s[i + 1];
        }
      }
      DigitsOfDigits(s[1..]);
    }
  }

  /** The number as the WhatsApp links use it: digits only, with the
      country code 94 in front unless it is there already; a leading trunk
      0 is dropped before the code is added. */
  function NormalisePhone(phone: string): (r: string)
    ensures |r| >= 2 && r[..2] == "94"
    ensures AllDigits(r)
    ensures var d := DigitsOf(phone);
      || (|d| >= 2 && d[..2] == "94" && r == d)
      || (!(|d| >= 2 && d[..2] == "94") && |d| >= 1 && d[0] == '0' && r == "94" + d[1..])
      || (!(|d| >= 2 && d[..2] == "94") && !(|d| >= 1 && d[0] == '0') && r == "94" + d)
  {
    var d := DigitsOf(phone);
    if |d| >= 2 && d[..2] == "94" then d
    else if |d| >= 1 && d[0] == '0' then "94" + d[1..]
    else "94" + d
  }

  lemma {:induction false} DigitsOfAppend(a: string, b: string)
    ensures DigitsOf(a + b) == DigitsOf(a) + DigitsOf(b)
    decreases |a|
  {
    if a == [] {
      assert a + b == b;
    } else {
      assert (a + b)[0] == a[0] && (a + b)[1..] == a[1..] + b;
      DigitsOfAppend(a[1..], b);
    }
  }

  /** Normalising a normalised number changes nothing. */
  lemma NormalisePhoneIdempotent(phone: string)
    ensures NormalisePhone(NormalisePhone(phone)) == NormalisePhone(phone)
  {
    DigitsOfDigits(NormalisePhone(phone));
  }

  /** A local number written with its trunk 0 loses the 0 and gains the
      country code. */
  lemma LocalNumberGainsCode(rest: string)
    requires AllDigits(rest)
    ensures NormalisePhone("0" + rest) == "94" + rest
  {
    assert AllDigits("0" + rest) by {
      assert forall i :: 1 <= i < |"0" + rest| ==> ("0" + rest)[i] == rest[i - 1];
    }
    DigitsOfDigits("0" + rest);
    assert ("0" + rest)[1..] == rest;
  }

  /** The spaces and dashes a cashier types between the digits make no
      difference. */
  lemma SeparatorsIgnored(a: string, sep: string, b: string)
    requires forall i :: 0 <= i < |sep| ==> !IsDigit(sep[i])
    ensures NormalisePhone(a + sep + b) == NormalisePhone(a + b)
  {
    assert DigitsOf(a + sep + b) == DigitsOf(a + b) by {
      DigitsOfAppend(a + sep, b);
      DigitsOfAppend(a, sep);
      DigitsOfAppend(a, b);
      NoDigits(sep);
      assert DigitsOf(a) + [] == DigitsOf(a);
    }
  }

  lemma {:induction false} NoDigits(s: string)
    requires forall i :: 0 <= i < |s| ==> !IsDigit(s[i])
    ensures DigitsOf(s) == []
    decreases |s|
  {
    if s != [] {
      assert forall i :: 0 <= i < |s[1..]| ==> s[1..][i] == s[i + 1];
      NoDigits(s[1..]);
    }
  }

  // ---------------------------------------------------------------------
  // Service reminders

  /** The vehicle's latest sale so far, as the grouping loop keeps it: a
      sale replaces the kept one only when its timestamp is strictly
      later. */
  function KeepLatest(latest: map<string, Sale>, s: Sale): map<string, Sale> {
    if s.vehicleNo !in latest || s.timestamp > latest[s.vehicleNo].timestamp then latest[s.vehicleNo := s]
    else latest
  }

  /** `vehicleLastService`, built over the sales in key order. */
  function LastService(sales: seq<Sale>): (r: map<string, Sale>)
    ensures forall v :: v in r ==> r[v].vehicleNo == v
    decreases |sales|
  {
    if sales == [] then map[] else KeepLatest(LastService(sales[..|sales| - 1]), sales[|sales| - 1])
  }

  /** `sales[i]` is the latest sale of vehicle `v`, and the first one
      when several share its timestamp. */
  predicate IsLatestOf(sales: seq<Sale>, v: string, i: int) {
    && 0 <= i < |sales| && sales[i].vehicleNo == v
    && (forall j :: 0 <= j < |sales| && sales[j].vehicleNo == v ==> sales[j].timestamp <= sales[i].timestamp)
    && (forall j :: 0 <= j < i && sales[j].vehicleNo == v ==> sales[j].timestamp < sales[i].timestamp)
  }

  /** One more sale: the kept one stays latest unless the new sale of the
      same vehicle is strictly later, and then the new one is. */
  lemma LatestExtends(sales: seq<Sale>, v: string, i: int)
    requires sales != [] && IsLatestOf(sales[..|sales| - 1], v, i)
    ensures var s := sales[|sales| - 1];
      && (s.vehicleNo != v || s.timestamp <= sales[i].timestamp ==> IsLatestOf(sales, v, i))
      && (s.vehicleNo == v && s.timestamp > sales[i].timestamp ==> IsLatestOf(sales, v, |sales| - 1))
  {
    assert forall j :: 0 <= j < |sales| - 1 ==> sales[j] == sales[..|sales| - 1][j];
  }

  /** The first sale of a vehicle is its latest so far. */
  lemma LatestFirst(sales: seq<Sale>, v: string)
    requires sales != [] && sales[|sales| - 1].vehicleNo == v
    requires forall j :: 0 <= j < |sales| - 1 ==> sales[j].vehicleNo != v
    ensures IsLatestOf(sales, v, |sales| - 1)
  {
  }

  /** The vehicles with an entry are exactly the vehicles with a sale. */
  lemma {:induction false} LastServiceKeys(sales: seq<Sale>)
    ensures forall v :: v in LastService(sales) <==> exists i :: 0 <= i < |sales| && sales[i].vehicleNo == v
    decreases |sales|
  {
    if sales != [] {
      var n := |sales| - 1;
      var init := sales[..n];
      LastServiceKeys(init);
      var prev := LastService(init);
      var r := LastService(sales);
      assert r.Keys == prev.Keys + {sales[n].vehicleNo};
      forall v
        ensures v in r <==> exists i :: 0 <= i < |sales| && sales[i].vehicleNo == v
      {
        if exists i :: 0 <= i < |sales| && sales[i].vehicleNo == v {
          var i :| 0 <= i < |sales| && sales[i].vehicleNo == v;
          if i < n {
            assert init[i] == sales[i];
          }
        }
        if v in prev {
          var i :| 0 <= i < |init| && init[i].vehicleNo == v;
          assert sales[i] == init[i];
        }
      }
    }
  }

  /** Every vehicle with a sale has exactly one entry, and it is that
      vehicle's latest sale, the first one when several share the latest
      timestamp. */
  lemma {:induction false} LastServiceIsLatest(sales: seq<Sale>)
    ensures forall v :: v in LastService(sales) <==> exists i :: 0 <= i < |sales| && sales[i].vehicleNo == v
    ensures forall v :: v in LastService(sales) ==> exists i :: IsLatestOf(sales, v, i) && sales[i] == LastService(sales)[v]
    decreases |sales|
  {
    if sales != [] {
      var n := |sales| - 1;
      var init := sales[..n];
      var s := sales[n];
      LastServiceIsLatest(init);
      var prev := LastService(init);
      var r := LastService(sales);
      assert r == KeepLatest(prev, s);
      forall v | v in r
        ensures exists i :: IsLatestOf(sales, v, i) && sales[i] == r[v]
      {
        if v in prev {
          var i :| IsLatestOf(init, v, i) && init[i] == prev[v];
          LatestExtends(sales, v, i);
          assert sales[i] == init[i];
        } else {
          assert v == s.vehicleNo && r[v] == s;
          forall j | 0 <= j < n
            ensures sales[j].vehicleNo != v
          {
            assert sales[j] == init[j];
          }
          LatestFirst(sales, v);
        }
      }
      LastServiceKeys(sales);
    }
  }

  const DayMs := 24 * 60 * 60 * 1000
  /** The service interval: due 90 days after the last service. */
  const ServiceDays := 90
  /** The mileage interval for the next oil change. */
  const ServiceKm := 5000

  /** `Math.ceil(a / b)` for a positive divisor; Dafny's `/` rounds down. */
  function CeilDiv(a: int, b: int): (q: int)
    requires b > 0
    ensures (q - 1) * b < a <= q * b
  {
    -((-a) / b)
  }

  lemma MulCancel(a: int, b: int, k: int)
    requires k > 0 && a * k < b * k
    ensures a < b
  {
  }

  datatype Reminder = Reminder(
    vehicleNo: string,
    customerName: string,
    customerPhone: string,
    lastDate: int,
    lastMileage: int,
    dueTimestamp: int,
    nextMileageDue: int,
    daysLeft: int,
    isOverdue: bool)

  /** The reminder for a vehicle whose latest sale is `last`, seen on the
      day that starts at `today`: due 90 days after the sale, the days left
      rounded up, overdue once that count is negative, and the next
      service 5000 km on unless no mileage was recorded. */
  function ReminderFor(last: Sale, today: int): (r: Reminder)
    ensures r.dueTimestamp == last.timestamp + ServiceDays * DayMs
    ensures (r.daysLeft - 1) * DayMs < r.dueTimestamp - today <= r.daysLeft * DayMs
    ensures r.isOverdue <==> r.dueTimestamp - today <= -DayMs
    ensures last.mileage > 0 ==> r.nextMileageDue == last.mileage + ServiceKm
    ensures last.mileage <= 0 ==> r.nextMileageDue == 0
    ensures r.vehicleNo == last.vehicleNo && r.customerName == last.customerName && r.customerPhone == last.customerPhone
  {
    var due := last.timestamp + ServiceDays * DayMs;
    var days := CeilDiv(due - today, DayMs);
    var next := if last.mileage > 0 then last.mileage + ServiceKm else 0;
    Reminder(last.vehicleNo, last.customerName, last.customerPhone, last.date, last.mileage, due, next, days, days < 0)
  }

  /** A later service never brings the due date nearer. */
  lemma LaterServiceLaterDue(a: Sale, b: Sale, today: int)
    requires a.timestamp <= b.timestamp
    ensures ReminderFor(a, today).daysLeft <= ReminderFor(b, today).daysLeft
    ensures ReminderFor(b, today).isOverdue ==> ReminderFor(a, today).isOverdue
  {
    var ra := ReminderFor(a, today);
    var rb := ReminderFor(b, today);
    MulCancel(ra.daysLeft - 1, rb.daysLeft, DayMs);
  }

  /** A service on the day itself is due in exactly 90 days. */
  lemma ServiceTodayDueIn90(last: Sale, today: int)
    requires last.timestamp == today
    ensures ReminderFor(last, today).daysLeft == ServiceDays
    ensures !ReminderFor(last, today).isOverdue
  {
  }

  datatype ReminderFilter = All | Overdue | Upcoming

  /** The list filter: overdue reminders, or those due within a week. */
  predicate Shown(r: Reminder, f: ReminderFilter) {
    match f
    case All => true
    case Overdue => r.isOverdue
    case Upcoming => 0 <= r.daysLeft <= 7
  }

  /** The reminders of the list, one per vehicle with a sale, under the
      chosen filter. */
  function Reminders(sales: seq<Sale>, today: int, f: ReminderFilter): (rs: set<Reminder>)
    ensures forall r :: r in rs ==> Shown(r, f)
    ensures forall r :: r in rs ==> r.vehicleNo in LastService(sales) && r == ReminderFor(LastService(sales)[r.vehicleNo], today)
    ensures forall v :: v in LastService(sales) && Shown(ReminderFor(LastService(sales)[v], today), f) ==>
      ReminderFor(LastService(sales)[v], today) in rs
  {
    var last := LastService(sales);
    set v | v in last && Shown(ReminderFor(last[v], today), f) :: ReminderFor(last[v], today)
  }

  /** No vehicle is listed both as overdue and as upcoming. */
  lemma OverdueAndUpcomingDisjoint(sales: seq<Sale>, today: int)
    ensures Reminders(sales, today, Overdue) * Reminders(sales, today, Upcoming) == {}
  {
    var a := Reminders(sales, today, Overdue);
    var b := Reminders(sales, today, Upcoming);
    forall r | r in a
      ensures r !in b
    {
    }
  }
}

=== FILE: sessions.dfy ===
/** The business-day lifecycle: finding the user's open session when the
    page loads, starting a new day, and the invoice number shown for the
    next sale. */
module Sessions {
  import opened Common
  import opened Records

  function OpenFor(uid: nat): Session -> bool {
    (s: Session) => s.userId == uid && s.status == Open
  }

  predicate HasOpenSession(t: Table<Session>, uid: nat) {
    exists k :: k in t.rows && t.rows[k].userId == uid && t.rows[k].status == Open
  }

  /** `(counter || 0)`: a missing counter reads as zero. */
  function Counter(s: Session): int {
    match s.invoiceCounter
    case Some(c) => c
    case None => 0
  }

  /** The repairs `checkSession` makes to the in-memory copy of a session
      loaded from an older record: a missing start time becomes `now`, a
      missing float and a missing counter become zero. The stored record
      is left as it is. */
  function Normalise(s: Session, now: int): (r: Session)
    ensures r.floatCash.Some? && r.invoiceCounter.Some? && r.startTime.Some?
    ensures r.invoiceCounter == Some(Counter(s))
    ensures s.floatCash.Some? ==> r.floatCash == s.floatCash
    ensures s.floatCash.None? ==> r.floatCash == Some(0)
    ensures r.userId == s.userId && r.status == s.status && r.endTime == s.endTime && r.cashInHand == s.cashInHand
    ensures s.startTime.Some? && s.startTime.value != 0 ==> r.startTime == s.startTime
  {
    s.(startTime := if s.startTime.None? || s.startTime == Some(0) then Some(now) else s.startTime,
       floatCash := if s.floatCash.None? then Some(0) else s.floatCash,
       invoiceCounter := Some(Counter(s)))
  }

  /** `checkSession`: with a user logged in, the current session becomes the
      user's open session with the lowest key (the first the index returns),
      normalised, or none when the user has no open session. Without a user
      nothing happens. */
  function CheckSession(st: Pos, now: int): (r: Pos)
    requires st.db.Valid()
    ensures r.db == st.db && r.cart == st.cart && r.user == st.user && r.pending == st.pending
    ensures r.redeemedPoints == st.redeemedPoints && r.grnCart == st.grnCart
    ensures st.user.None? ==> r == st
    ensures st.user.Some? ==> (r.current.Some? <==> HasOpenSession(st.db.sessions, st.user.value))
    ensures st.user.Some? && r.current.Some? ==>
      var a := r.current.value;
      && a.id in st.db.sessions.rows
      && OpenFor(st.user.value)(st.db.sessions.rows[a.id])
      && a.session == Normalise(st.db.sessions.rows[a.id], now)
      && forall k :: k in st.db.sessions.rows && k < a.id ==> !OpenFor(st.user.value)(st.db.sessions.rows[k])
  {
    match st.user
    case None => st
    case Some(uid) =>
      var ks := Where(st.db.sessions, OpenFor(uid));
      if ks == [] then
        st.(current := None)
      else
        assert forall k :: k in st.db.sessions.rows && k < ks[0] && OpenFor(uid)(st.db.sessions.rows[k]) ==> k in ks;
        st.(current := Some(Active(ks[0], Normalise(st.db.sessions.rows[ks[0]], now))))
  }

  /** The record `startNewDay` writes. */
  function NewSession(uid: nat, float: int, now: int): Session {
    Session(uid, Some(now), None, Some(float), None, Open, Some(0))
  }

  /** `startNewDay`: stores a fresh open session with counter 0 for the
      current user, then re-runs `checkSession`. It does not look for an
      open session first, so a second call opens a second session; the
      follow-up `checkSession` then keeps the older one current. */
  function StartNewDay(st: Pos, float: int, now: int): (r: Result<Pos>)
    requires st.db.Valid()
    ensures st.user.None? <==> r.Err?
    ensures r.Ok? ==>
      var st' := r.value;
      var k := st.db.sessions.nextId;
      && st'.db.Valid()
      && st'.db == st.db.(sessions := Table(st.db.sessions.rows[k := NewSession(st.user.value, float, now)], k + 1))
      && st'.current.Some?
      && (st'.current.value.id == k <==> !HasOpenSession(st.db.sessions, st.user.value))
      && st'.cart == st.cart && st'.pending == st.pending
      && st'.user == st.user && st'.redeemedPoints == st.redeemedPoints && st'.grnCart == st.grnCart
  {
    match st.user
    case None => Err(NotLoggedIn)
    case Some(uid) =>
      var (sessions', id) := st.db.sessions.Add(NewSession(uid, float, now));
      var st1 := st.(db := st.db.(sessions := sessions'), current := Some(Active(id, NewSession(uid, float, now))));
      assert OpenFor(uid)(sessions'.rows[id]);
      var st2 := CheckSession(st1, now);
      assert HasOpenSession(st.db.sessions, uid) ==> st2.current.value.id != id by {
        if HasOpenSession(st.db.sessions, uid) {
          var k :| k in st.db.sessions.rows && st.db.sessions.rows[k].userId == uid && st.db.sessions.rows[k].status == Open;
          assert k < id && k in sessions'.rows && OpenFor(uid)(sessions'.rows[k]);
        }
      }
      assert !HasOpenSession(st.db.sessions, uid) ==> st2.current.value.id == id by {
        if !HasOpenSession(st.db.sessions, uid) {
          var a := st2.current.value;
          assert a.id in sessions'.rows && OpenFor(uid)(sessions'.rows[a.id]);
          if a.id != id {
            assert false;
          }
        }
      }
      Ok(st2)
  }

  /** A fresh day opened when the user had no open session becomes the
      current session, with float as given and counter 0. */
  lemma StartNewDayFresh(st: Pos, float: int, now: int)
    requires st.db.Valid() && st.user.Some?
    requires !HasOpenSession(st.db.sessions, st.user.value)
    ensures StartNewDay(st, float, now).Ok?
    ensures var st' := StartNewDay(st, float, now).value;
      st'.current == Some(Active(st.db.sessions.nextId, NewSession(st.user.value, float, now)))
  {
    var st' := StartNewDay(st, float, now).value;
    var k := st.db.sessions.nextId;
    assert st'.current.value.id == k;
    assert st'.db.sessions.rows[k] == NewSession(st.user.value, float, now);
  }

  /** No session vanishes, and no closed session is open again afterwards. */
  predicate NoReopen(before: Table<Session>, after: Table<Session>) {
    forall k :: k in before.rows ==>
      k in after.rows && (before.rows[k].status == Closed ==> after.rows[k].status == Closed)
  }

  lemma NoReopenTransitive(a: Table<Session>, b: Table<Session>, c: Table<Session>)
    requires NoReopen(a, b) && NoReopen(b, c)
    ensures NoReopen(a, c)
  {
    forall k | k in a.rows
      ensures k in c.rows && (a.rows[k].status == Closed ==> c.rows[k].status == Closed)
    {
      assert k in b.rows;
    }
  }

  /** Opening a day adds one open session and touches no stored one. */
  lemma StartNewDayNoReopen(st: Pos, float: int, now: int)
    requires st.db.Valid() && StartNewDay(st, float, now).Ok?
    ensures NoReopen(st.db.sessions, StartNewDay(st, float, now).value.db.sessions)
    ensures var t := StartNewDay(st, float, now).value.db.sessions;
      forall k :: k in st.db.sessions.rows ==> t.rows[k] == st.db.sessions.rows[k]
  {
  }

  /** `updateNextInvoiceID`: the number the next sale will get. */
  function NextInvoiceId(current: Option<ActiveSession>): (n: int)
    ensures current.None? ==> n == 1
    ensures current.Some? ==> n == Counter(current.value.session) + 1
  {
    match current
    case None => 1
    case Some(a) => Counter(a.session) + 1
  }
}
